=== FILE: README.md ===
# SensAI backend core, modelled in Dafny

This project models seven small pieces of sequential logic from the SensAI
FastAPI backend and proves properties about them:

- **The WebSocket connection registry** (`src/api/websockets.py`). The
  `ConnectionManager` maps course ids to sets of connection handles. Its
  invariant is that every key maps to a non-empty set. The model covers
  `connect`, `disconnect` and `send_item_update`, plus the ping/pong receive
  loop of `websocket_course_generation` as a machine over inbound frames.
- **The mock schedule generator** (`src/api/routes/ai_schedule.py`).
  - Tasks are flattened in milestone order.
  - Each task is placed greedily on the earliest allowed day at or after a
    cursor. A day is not allowed if it is an excluded date, an excluded
    JavaScript weekday, or a weekend when weekends are not included.
  - The placed tasks are then grouped by date.
- **The safety filter** (`src/api/utils/safety_filter.py`): the substring
  pre-check over two fixed term lists, the verdict around an abstract LLM
  reply, and the request texts the two entry points build.
- **The quiz question simplifier** (`get_task_questions` in
  `src/api/routes/task.py`). Stem, options and explanation come from the
  first matching block, and the answer is looked up among the options.
- **Quiz generation** (`generate_questions_for_task` in
  `src/api/routes/ai_questions.py`):
  - the redirect of a learning-material task to a newly created quiz;
  - a three-attempt LLM call with linear backoff;
  - the element-wise adapter from LLM questions to stored questions.
- **The schedule table** (`src/api/db/schedule.py`): the `days` JSON
  encoder/decoder pair and save/get/delete as an overwriting map.
- **Batch chunking** (`src/api/utils/concurrency.py`): `async_batch_gather`
  and `async_index_wrapper`.

## Modelling conventions

- **JSON and Python values.** Stored and received JSON is `Json.Value`.
  - Python's `None` is `JNull`, and `dict.get` of a missing key gives `JNull`.
  - Python truthiness is `Json.Truthy`, and `x or y` is `Json.Or`.
  - Where the source would raise an exception, a function returns `None`, or
    an `Err` carrying the HTTP status the route ends with.
- **Dates** are proleptic Gregorian ordinals, as `date.toordinal()` gives
  them. Ordinal 1 is a Monday, so the JavaScript weekday `(weekday() + 1) % 7`
  is `ordinal % 7`. The stored date text is the decimal ordinal, which stands
  in for `isoformat()`. Both renderings are injective, and
  `Text.DecimalRoundTrip` proves that this one parses back.
- **Parameters.** Sends, receives, the LLM, the clock, new ids and database
  reads are parameters:
  - a per-handle send oracle;
  - a sequence of inbound frames;
  - a per-attempt LLM reply;
  - `today` and `now`.
- **The receive loop.** A text frame that is not JSON makes `receive_json`
  raise after it has consumed the frame. The fallback `receive_text` then
  consumes the *next* frame. So a ping sent right after plain text gets no
  pong (`Registry.PlainTextSwallowsNextFrame`).
- **Course requests.** Every course request contains "Course Description:",
  and "course" is a safe term. So a course request without a red flag never
  reaches the LLM (`Safety.CourseRequestBypassesUnlessRedFlag`).

## Model

| member | source | states |
|---|---|---|
| Registry.Connect | src/api/websockets.py:15-24 | if accept fails the registry is unchanged and the error propagates; otherwise the handle's course maps to the old set (or a new empty one) plus the handle, other courses are untouched, and the non-empty-set invariant is kept |
| Registry.ConnectIdempotent | src/api/websockets.py:18-20 | connecting the same handle twice gives the same registry as once, and connecting a handle already present changes nothing |
| Registry.Disconnect | src/api/websockets.py:26-31 | the handle is removed; the course key survives exactly when handles remain, holding the old set minus the handle; other courses untouched; invariant kept |
| Registry.DisconnectAbsentNoOp | src/api/websockets.py:27-28 | disconnecting from an absent course, or a handle not in the set, leaves a valid registry unchanged |
| Registry.DisconnectTwice | src/api/websockets.py:26-30 | a second removal of the same handle is a no-op |
| Registry.DisconnectExtendsPrune | src/api/websockets.py:44-46 | one more `disconnect` after removing a set of failed handles is the same as removing that set plus the handle, so the removal loop computes the reference `Prune` |
| Registry.SendItemUpdate | src/api/websockets.py:33-46 | a course with no entry is a no-op; otherwise every handle in the set is attempted, the failed set is exactly those whose send failed, the result is the registry with exactly those removed, successful handles remain, the key is deleted iff nothing remains, other courses are untouched and the invariant is kept |
| Registry.Listen | src/api/websockets.py:61-77 | the loop replies only with pongs, at most one per inbound frame, and it ends exactly when a close (disconnect or transport error) is among the frames it reads; with no close it is still waiting |
| Registry.FallbackText | src/api/websockets.py:69-71 | the fallback text receive consumes one frame; the session ends exactly when that frame or a later one is a close, with the same pong-only replies |
| Registry.JsonClientGetsOnePongPerPing | src/api/websockets.py:61-68 | for a client sending only JSON with working sends, the loop ends iff a close arrives, and without a close it sends exactly one pong per ping |
| Registry.IsPing | src/api/websockets.py:66 | a frame is a ping exactly when it is a dict whose "type" is the string "ping" |
| Registry.PingThenPong | src/api/websockets.py:65-71 | at any position, a ping whose pong is sent is answered by exactly that pong followed by the replies to the rest of the frames; if the send raises, the fallback receive takes the next frame |
| Registry.OtherJsonIgnored | src/api/websockets.py:65-68 | at any position, JSON other than a ping gets no reply and the loop goes on with the next frame |
| Registry.PlainTextSwallowsNextFrame | src/api/websockets.py:64-77 | at any position, raw text gets no reply and the fallback receive consumes the frame after it: the loop goes on two frames later, ends if that frame is the close, and keeps waiting if there is none |
| Registry.Endpoint | src/api/websockets.py:55-83 | as written: a failed handshake ends in `disconnect`; after a successful one the registry is exactly what `connect` made of it, so the handle is registered, and the session follows `Listen`; other courses are never touched |
| Registry.FailedHandshakeRegistersNothing | src/api/websockets.py:78-83 | when accept fails, a handle that was not registered is still not registered afterwards |
| Registry.ClosedSessionStaysRegistered | src/api/websockets.py:72-77 | a session that ended by a disconnect or error still has its handle in the registry, because the `break` exits skip `disconnect` |
| Registry.EndpointIntended | src/api/websockets.py:72-83 | the corrected endpoint: the handle is registered while the session runs and the invariant is kept |
| Registry.IntendedEndUnregisters | src/api/websockets.py:78-83 | in the corrected endpoint, a session that ends removes its handle from the registry |
| Registry.BroadcastAfterClose | src/api/websockets.py:33-46 | after a closed session, the next broadcast whose send to it fails removes the stale handle and keeps every handle that received the payload |
| MockSchedule.NormalizeWeekdayIndices | src/api/routes/ai_schedule.py:21-23 | `None` becomes `[]` and any given list is returned unchanged |
| MockSchedule.FlatTasks | src/api/routes/ai_schedule.py:49-55 | one flat record per task of a milestone, in task order, carrying the task id, milestone id and title |
| MockSchedule.Flatten | src/api/routes/ai_schedule.py:47-55 | every flat record carries the id of one of the course's milestones, and a course without milestones has no tasks |
| MockSchedule.FlattenAppend | src/api/routes/ai_schedule.py:48-55 | flattening distributes over concatenation of milestone lists |
| MockSchedule.FlattenPrefixLength | src/api/routes/ai_schedule.py:48-55 | the tasks of the first `m` milestones fill exactly the first `Offset(m)` flat positions |
| MockSchedule.FlattenOrder | src/api/routes/ai_schedule.py:47-55 | task `t` of milestone `m` sits at flat position `Offset(m) + t`, so the order is milestone-major, then task order |
| MockSchedule.FlattenLength | src/api/routes/ai_schedule.py:47-55 | the flat list has one entry per task of every milestone |
| MockSchedule.JsWeekday | src/api/routes/ai_schedule.py:71 | the JavaScript weekday of a date is Python's Monday-based weekday plus one, modulo 7, and lies in 0..6 |
| MockSchedule.SkipMeasureDecreases | src/api/routes/ai_schedule.py:70-81 | each skipped day strictly decreases a bounded measure when some weekday is allowed, so the skip loop terminates |
| MockSchedule.NextAllowed | src/api/routes/ai_schedule.py:70-81 | the skip loop stops at an allowed date at or after the cursor, and every date in between is not allowed |
| MockSchedule.Place | src/api/routes/ai_schedule.py:68-99 | one placement per task with that task's item; the first task lands on the earliest allowed date at or after the start, and each later task on the earliest allowed date after the previous task's date |
| MockSchedule.GreedyIsIncreasing | src/api/routes/ai_schedule.py:68-99 | a greedy placement lies on allowed dates at or after the start, in strictly increasing date order |
| MockSchedule.ItemFor | src/api/routes/ai_schedule.py:87-95 | the item is a quiz exactly when the raw type is "quiz", otherwise "learning"; learning lasts 90 minutes and a quiz 30; it carries the task id, milestone id and title |
| MockSchedule.IndexOfDate | src/api/routes/ai_schedule.py:84-85 | the lookup in `scheduled_by_date` finds a day with the given date, or reports none exactly when no day has it |
| MockSchedule.AddItem | src/api/routes/ai_schedule.py:83-96 | an item goes to the end of the existing day for its date, or starts a new day at the end; days of other dates are unchanged, and distinct dates stay distinct |
| MockSchedule.Group | src/api/routes/ai_schedule.py:83-102 | grouping gives at most one day per placement, no two days share a date, and no day is empty |
| MockSchedule.OneItemDays | src/api/routes/ai_schedule.py:101-102 | one day per placement, holding just that placement's item |
| MockSchedule.GroupDistinctDates | src/api/routes/ai_schedule.py:83-102 | when the dates strictly increase, grouping by date yields exactly one single-item day per task, in order |
| MockSchedule.GroupGreedy | src/api/routes/ai_schedule.py:64-102 | grouping a greedy placement by date gives one single-item day per placement; the first is at or after the start, every day is allowed, and dates strictly increase |
| MockSchedule.Plan | src/api/routes/ai_schedule.py:64-102 | one single-item day per task, in task order, from the greedy placement; the first day is at or after the start, every day is an allowed date, and dates strictly increase |
| MockSchedule.AfterFirstDay | src/api/routes/ai_schedule.py:64-99 | when dates strictly increase from a first day at or after the start, every day is at or after the start |
| MockSchedule.GenerateMockSchedule | src/api/routes/ai_schedule.py:33-113 | 404 exactly when the course is missing, and a schedule exactly when it exists; the schedule is for the course, stamped with `now`, with one day per task, in the requested timezone when one is given and non-empty, else in "UTC" |
| MockSchedule.MockScheduleItems | src/api/routes/ai_schedule.py:47-102 | day `i` holds exactly task `i`'s item: its ids and title, "quiz" of 30 minutes iff its raw type is "quiz", else "learning" of 90 |
| MockSchedule.MockScheduleDates | src/api/routes/ai_schedule.py:57-102 | day `i` is at or after the start and after day `i-1`, is not an excluded date or excluded JavaScript weekday, and is not a weekend unless weekends are included |
| MockSchedule.ConfigOf | src/api/routes/ai_schedule.py:37-58 | weekends are included only when the request says true; the weekday exclusions are the request's, or none; the excluded dates are exactly the request's |
| MockSchedule.GenerateAndPersist | src/api/routes/ai_schedule.py:104-113 | with `persist` the generated schedule reads back from the table; without it, or on error, the table is unchanged; the table is exactly the save's result, and other courses' rows are never touched |
| Safety.AnyOccurs | src/api/utils/safety_filter.py:57 | true iff some term of the list is a substring of the text |
| Safety.IsObviouslySafeEducational | src/api/utils/safety_filter.py:28-67 | true exactly when some safe term and no red-flag term is a substring of the lower-cased content |
| Safety.RedFlagForcesFullCheck | src/api/utils/safety_filter.py:60-67 | any red-flag substring makes the pre-check false, whatever safe terms occur |
| Safety.NoSafeTermNoBypass | src/api/utils/safety_filter.py:41-57 | content with no safe-term substring fails the pre-check |
| Safety.SubstringNotWord | src/api/utils/safety_filter.py:38-57 | matching ignores case and works on substrings: "art" is found in "SMART" |
| Safety.ParseVerdict | src/api/utils/safety_filter.py:185-189 | a reply is accepted exactly when it is a dict whose `is_safe` is missing or a boolean and whose `reason` is missing or a string; present fields come through unchanged, a missing `is_safe` means false and a missing `reason` gets the fallback text |
| Safety.EvaluateContent | src/api/utils/safety_filter.py:69-206 | a passing pre-check gives the bypass verdict; otherwise a reply that is not JSON is blocked, a failed call is allowed, and a JSON reply gives the parsed verdict with its reason, or the allow-on-failure verdict when it does not validate |
| Safety.BypassIgnoresLlm | src/api/utils/safety_filter.py:81-86 | when the pre-check passes the verdict does not depend on the LLM |
| Safety.BlockedExactly | src/api/utils/safety_filter.py:81-206 | content is blocked iff the pre-check fails and the reply is not JSON, or is a dict whose `is_safe` is false or missing and whose `reason`, if present, is a string |
| Safety.CourseRequestText | src/api/utils/safety_filter.py:220-222 | the text starts with the description and audience lines, and the instructions line follows iff instructions are given and non-empty |
| Safety.ChatRequestText | src/api/utils/safety_filter.py:237-239 | the text starts with the user response line, and the context line follows iff a context is given and non-empty |
| Safety.EmptyOptionalIsOmitted | src/api/utils/safety_filter.py:221-239 | an empty instructions or context string builds the same text as none |
| Safety.EvaluateCourseRequest | src/api/utils/safety_filter.py:208-224 | the verdict is `evaluate_content` over the built course text: a course text that passes the pre-check gets the bypass verdict; otherwise it is blocked exactly when the LLM reply is not JSON or a dict that denies or omits `is_safe`; a failed call is allowed |
| Safety.EvaluateChatRequest | src/api/utils/safety_filter.py:226-241 | the verdict is `evaluate_content` over the built chat text: a chat text that passes the pre-check gets the bypass verdict; otherwise it is blocked exactly when the LLM reply is not JSON or a dict that denies or omits `is_safe`; a failed call is allowed |
| Safety.CourseRequestsMentionCourse | src/api/utils/safety_filter.py:220 | every course request text contains "course" after lower-casing |
| Safety.CourseRequestBypassesUnlessRedFlag | src/api/utils/safety_filter.py:208-224 | a course request with no red-flag substring gets the bypass verdict whatever the LLM would say |
| TaskQuestions.StemOf | src/api/routes/task.py:61 | a stem block raises exactly when its props cannot be read; otherwise the stem is its props text if truthy, else its content if truthy, else the question title |
| TaskQuestions.OptionText | src/api/routes/task.py:65 | an option raises exactly when the item is not a dict or its props cannot be read; otherwise its text is the props text when truthy, else the content when truthy, else the empty string |
| TaskQuestions.OptionTexts | src/api/routes/task.py:64-66 | one text per option item in order, or a raise exactly when some item cannot be read |
| TaskQuestions.OptionsOf | src/api/routes/task.py:63-67 | raises exactly when the children-or-content items are not a list or some item cannot be read; otherwise `None` exactly when there are no items, else the item texts in order |
| TaskQuestions.ScanBlock | src/api/routes/task.py:59-69 | a block raises only if it is not a dict; it never overwrites a field already found, never touches the fields of other kinds, and sets its own kind's field from `StemOf`, `OptionsOf` or the note text, raising exactly when that read raises |
| TaskQuestions.ScanBlocks | src/api/routes/task.py:58-71 | over the whole block loop, values already found stay, and options found are non-empty |
| TaskQuestions.BlocksOf | src/api/routes/task.py:59 | the scanned blocks are the question's block list; any other value yields none |
| TaskQuestions.FirstStemWins | src/api/routes/task.py:58-71 | at any position: when the scan reaches the first stem-kind block without raising and it gives a non-None stem, that is the question's stem |
| TaskQuestions.FirstOptionsWin | src/api/routes/task.py:58-71 | at any position: when the scan reaches the first list-kind block without raising and it gives a non-empty list, that list is the question's options |
| TaskQuestions.FirstNoteWins | src/api/routes/task.py:58-71 | at any position: when the scan reaches the first note block without raising and its text is truthy, that text is the explanation |
| TaskQuestions.OtherBlocksChangeNothing | src/api/routes/task.py:60-69 | a block of another kind, or of a kind already found, leaves the findings unchanged |
| TaskQuestions.AnswerTexts | src/api/routes/task.py:78-79 | one props text per answer block |
| TaskQuestions.AnswerTextsContents | src/api/routes/task.py:78-79 | text k is answer block k's props text, and the texts exist exactly when every block is a dict with readable props |
| TaskQuestions.ScanAnswers | src/api/routes/task.py:78-79 | the answer loop raises exactly when some answer block cannot be read, and otherwise ends with the starting value or a truthy text |
| TaskQuestions.LastTruthy | src/api/routes/task.py:79 | the reference answer value: `None` or a truthy text taken from the answer texts |
| TaskQuestions.LastTruthyAppend | src/api/routes/task.py:79 | appending a text keeps it when truthy, else keeps the previous last truthy text |
| TaskQuestions.ScanAnswersKeepsLast | src/api/routes/task.py:78-87 | the answer loop raises exactly when some block cannot be read, and otherwise yields the last truthy text |
| TaskQuestions.IndexOf | src/api/routes/task.py:82-84 | the option lookup gives the first position holding the text, or none exactly when the text is not an option |
| TaskQuestions.AnswerOf | src/api/routes/task.py:73-87 | no answer unless answers are included; an index answer points at the first option equal to the truthy answer text; a text answer is truthy and, with options, not among them |
| TaskQuestions.AnswerFor | src/api/routes/task.py:80-87 | no answer for a falsy text; an index answer is the first option position holding the text; a text answer is the text itself, not among the options when there are options |
| TaskQuestions.AnswerIsLastText | src/api/routes/task.py:76-87 | with answers included and readable answer blocks, the answer is the lookup of the last truthy answer text |
| TaskQuestions.Simplify | src/api/routes/task.py:51-100 | an entry carries the question id and task id, "mcq" iff the type is "objective" (else "short"), options only when non-empty, an answer only when answers are included, an explanation only when truthy; with answers excluded it never fails; the options and explanation are those of the block scan and the answer is `AnswerOf` over the scanned options, the entry failing exactly when that lookup raises |
| TaskQuestions.QuestionFallsBack | src/api/routes/task.py:93 | the question text is the stem if truthy, else the title if truthy, else "" |
| TaskQuestions.SimplifyAll | src/api/routes/task.py:50-102 | one entry per question in order, or a failure exactly when some question's answer scan raises |
| TaskQuestions.GetTaskQuestions | src/api/routes/task.py:44-104 | 404 exactly when the task is missing or not a quiz; any other failure is a 500 from the answer scan; otherwise one entry per question in order, each with the task id and its question's id, the entries being `SimplifyAll` of the questions; a 500 exactly when that raises |
| AiQuestions.IsQuiz | src/api/routes/ai_questions.py:36-37 | a type is a quiz when it equals the quiz value, or does after lower-casing |
| AiQuestions.IsLearning | src/api/routes/ai_questions.py:39-40 | a type is a learning material when it equals that value, or does after lower-casing |
| AiQuestions.TypeTestsIgnoreCase | src/api/routes/ai_questions.py:36-40 | both type tests compare the lower-cased type, and no type is both a quiz and a learning material |
| AiQuestions.Str | src/api/routes/ai_questions.py:156 | Python's `str` of a string is the string itself; any other value goes through `repr` |
| AiQuestions.QuizTitle | src/api/routes/ai_questions.py:44 | the new quiz is titled "Quiz: " plus the task title, or "Quiz: Generated" when the title is falsy |
| AiQuestions.ChooseTarget | src/api/routes/ai_questions.py:21-56 | 404 for a missing task, 400 for missing metadata; a quiz is created iff the task is a learning material, with the derived title in the task's course and milestone; generation goes on only with a quiz, under the new id after a redirect |
| AiQuestions.QuizIsUsedInPlace | src/api/routes/ai_questions.py:43-56 | a quiz task is generated for in place and nothing is created |
| AiQuestions.LearningRedirects | src/api/routes/ai_questions.py:43-53 | a learning-material task moves generation to the new quiz |
| AiQuestions.OtherTypesRejected | src/api/routes/ai_questions.py:55-56 | a task that is neither a quiz nor a learning material is rejected with 400 and nothing is created |
| AiQuestions.Backoff | src/api/routes/ai_questions.py:136 | the first pause is 1.5 seconds and each later one is 1.5 seconds longer than the one before |
| AiQuestions.Retry | src/api/routes/ai_questions.py:116-136 | at most three attempts, stopping at the first success; 502 iff all three fail; a sleep of 1.5·(k+1) seconds after each failed attempt k except the last |
| AiQuestions.Adapted | src/api/routes/ai_questions.py:145-180 | defaults for type ("objective"), title ("Question " + index+1) and input type ("text"); the blocks are the converted block list, or the conversion of `[]` when it is falsy; the answer is `None` when `correct_answer` is falsy and otherwise the converted single paragraph block of its text; coding languages and context are kept when truthy and `None` otherwise; chat response type, no attempt limit, feedback shown, no scorecard |
| AiQuestions.Adapt | src/api/routes/ai_questions.py:143-180 | a raw question that is not a dict raises; a dict is adapted field by field as `Adapted` states |
| AiQuestions.AdaptFrom | src/api/routes/ai_questions.py:142-180 | one stored question per raw question, in order, numbered from 1; a failure exactly when some raw question is not a dict |
| AiQuestions.Finish | src/api/routes/ai_questions.py:138-189 | the update succeeds exactly when the reply is a dict whose questions (none when missing or falsy) are a list of dicts, and otherwise fails with 500; the quiz title is the reply's title if truthy, else the task's; a missing question list yields none |
| AiQuestions.FinishAdaptsEachQuestion | src/api/routes/ai_questions.py:139-180 | stored question k is raw question k adapted with number k+1 |
| AiQuestions.GenerateQuestions | src/api/routes/ai_questions.py:19-191 | rejections happen before any LLM call; otherwise 1 to 3 attempts, 502 iff all fail, and whenever some attempt succeeds the result is `Finish` of that reply for the chosen task, so the draft update carries its adapted questions |
| ScheduleStore.EncodeItem | src/api/db/schedule.py:35 | an item is stored as a dict with exactly its five model fields |
| ScheduleStore.EncodeItems | src/api/db/schedule.py:35 | one stored dict per item, in order |
| ScheduleStore.EncodeDay | src/api/db/schedule.py:33-37 | a day is stored as a dict of exactly its date text, its items and its summary, with one stored item per item |
| ScheduleStore.EncodeDays | src/api/db/schedule.py:33-37 | one stored dict per day, in order |
| ScheduleStore.DecodeItem | src/api/db/schedule.py:63 | a rebuilt item takes its type, title and duration from the stored dict and its ids from the dict's possibly missing or null id fields |
| ScheduleStore.DecodeItems | src/api/db/schedule.py:63 | one item per stored dict, in order, or a raise exactly when some stored item cannot be rebuilt |
| ScheduleStore.Iterated | src/api/db/schedule.py:58-63 | the elements a `for` loop over a stored value yields to a body that needs dicts: a list gives its elements, an empty dict or empty string gives none, and anything else raises |
| ScheduleStore.DecodeDay | src/api/db/schedule.py:59-66 | a rebuilt day needs a stored date text that parses to its date; its items are the stored ones iterated as Python does, so missing, empty-dict or empty-string items mean no items; the summary is absent exactly when the stored one is missing or null |
| ScheduleStore.DecodeDayList | src/api/db/schedule.py:58-66 | one day per stored dict, in order, or a raise exactly when some stored day cannot be rebuilt |
| ScheduleStore.DecodeDays | src/api/db/schedule.py:55-66 | a missing or empty `days` payload decodes to no days, and a list decodes day by day |
| ScheduleStore.ItemsRoundTrip | src/api/db/schedule.py:35-63 | decoding encoded items gives them back |
| ScheduleStore.DayRoundTrip | src/api/db/schedule.py:33-66 | decoding an encoded day gives back its date, items and summary |
| ScheduleStore.DaysRoundTrip | src/api/db/schedule.py:33-66 | decoding the encoded `days` gives back every day, in order |
| ScheduleStore.SaveSchedule | src/api/db/schedule.py:10-41 | the course's row is written, other rows are untouched, and the input schedule is returned unchanged |
| ScheduleStore.GetSchedule | src/api/db/schedule.py:44-73 | absent exactly when no row exists; a read schedule carries the row's key and timezone; a row without days reads as no days |
| ScheduleStore.DeleteSchedule | src/api/db/schedule.py:76-80 | the course's row is gone and every other row is unchanged |
| ScheduleStore.GetAfterSave | src/api/db/schedule.py:23-73 | reading after a save gives back the saved schedule under the saved key |
| ScheduleStore.SaveOverwrites | src/api/db/schedule.py:23-29 | the last save of a course wins |
| ScheduleStore.SaveLeavesOthers | src/api/db/schedule.py:23-39 | saving one course does not change what another course reads |
| ScheduleStore.DeleteThenGet | src/api/db/schedule.py:76-80 | after a delete the course reads as absent and other courses read as before |
| Text.Contains | src/api/utils/safety_filter.py:57 | Python's `in` on strings: true iff the needle occurs at some position |
| Text.DecimalRoundTrip | src/api/db/schedule.py:34-62 | the rendered date text parses back to the same date |
| Text.DecimalInjective | src/api/db/schedule.py:34 | distinct dates are stored as distinct texts, so the stored rendering loses nothing |
| Concurrency.BatchGather | src/api/utils/concurrency.py:6-26 | batches are consecutive non-empty slices starting at multiples of the batch size, all full except possibly the last, concatenating to the input; results are in input order with result k from input k; empty input gives no batches |
| Concurrency.StartIsMultiple | src/api/utils/concurrency.py:15 | batch c starts at c times the batch size |
| Concurrency.GatherIndexed | src/api/utils/concurrency.py:6-31 | gathering index-wrapped runs gives result k tagged with index k and holding the run of argument k, whatever the batch size |

## Left out

- Transport: the real accept/send/receive, handshakes, logging and binary frames. Sends are an oracle and inbound traffic is a frame sequence.
- Interleaving: the registry can change while `send_item_update` is suspended at an `await`. Each registry operation is modelled as atomic.
- Coroutine scheduling: `asyncio.wait_for` timeouts, `asyncio.sleep` and `tqdm_asyncio.gather` concurrency. Sleeps appear only as the backoff list `Retry` returns.
- Concurrency.BatchGather: an exception from a gathered coroutine, which would abort the whole gather, is not modelled. The progress-bar description text is left out.
- LLM calls and prompts: the prompt text and OpenAI/instructor calls. Each call is an abstract reply, and the non-mock branch of `generate_course_schedule` is not modelled.
- AiQuestions.Retry: an attempt's reply already includes the `or "{}"` default and the JSON decoding. A failed decode is a failed attempt, as in the source.
- SQL: table creation, SQL text and the `execute_db_operation` layer. The table is a finite map. Between `json.dumps` and `json.loads` the text is assumed lossless.
- ScheduleStore.GetSchedule: the `generated_at` conversion through `datetime.fromisoformat` is not modelled. Timestamps are integers carried unchanged.
- Dates: stored as decimal ordinals instead of `YYYY-MM-DD`, an equally injective rendering. The `date` range limit (year 9999 overflow) is not modelled.
- Unseen helpers: `convert_blocks_to_right_format` is the parameter `convert`. Python `str` of a non-string is the parameter `repr`. The `api.db` CRUD functions are values passed in.
- AiQuestions.Adapted: the answer is `None` exactly when `correct_answer` is falsy only if `convert` never returns `None`. The contract states the two directions separately.
- Enum values: `TaskType.QUIZ`, `TaskType.LEARNING_MATERIAL` and `str(TaskAIResponseType.CHAT)` are taken as "quiz", "learning_material" and "chat", since `api.models` is not part of this model. The quiz created by the redirect is read back as a parameter, and its type is whatever that record holds.
- ScheduleStore.DecodeItem: Pydantic's lax coercion when `ScheduleItem(**i)` validates a stored item (a string "30" accepted as a duration or "5" as a task id) is not modelled. Only JSON strings and integers are accepted, so such an item reads as a failed load here. Items written by `save_schedule` are unaffected, as `DaysRoundTrip` shows.
- JSON numbers: the JSON model has integers only. Floating-point numbers are not modelled.
- Safety.ParseVerdict: Pydantic's lax coercion (a string "true" or a number accepted as a boolean) is not modelled. Only a JSON boolean and a JSON string are accepted; anything else counts as a validation error, which the source turns into the allow-on-failure verdict.
- Lower-casing: Unicode `str.lower()` is approximated by ASCII lower-casing.
- TaskQuestions.IndexOf: Python equality between `True` and `1` is not modelled. JSON values compare structurally.
- MockSchedule.GenerateMockSchedule: requires that some weekday survives the weekday rules when there are tasks. Otherwise the source's skip loop steps a day at a time until `timedelta` addition overflows past year 9999 and raises, which the route turns into a 500; that overflow path is not modelled.
- The remaining routes of `src/api/routes/task.py` and all of `src/api/routes/schedule.py` are thin database pass-throughs and are not modelled.

## Findings

| source | as written | input that shows it | evidently intended | confidence | as-written member | corrected member |
|---|---|---|---|---|---|---|
| src/api/websockets.py:72-77 | the `break` exits taken on a `WebSocketDisconnect` or any other error in the receive loop leave the endpoint without calling `manager.disconnect`; only exceptions reaching the outer handlers unregister | a client connects to course 1 and then closes the socket: frames `[Closed]` | a session that ends unregisters its handle, as the outer handlers at lines 78-83 do | medium, not executed | Registry.ClosedSessionStaysRegistered | Registry.IntendedEndUnregisters |

The stale handle stays until the next broadcast to the course fails to reach
it. `Registry.BroadcastAfterClose` shows that this broadcast then removes it.

=== FILE: ai_questions.dfy ===
/** `generate_questions_for_task` in `src/api/routes/ai_questions.py`:
    choosing the quiz to generate for (redirecting a learning-material task
    to a freshly created quiz), the three-attempt LLM call with linear
    backoff, and the adapter from the LLM's question list to stored quiz
    questions.

    The database and the LLM are parameters: the task and metadata lookups
    are values, the created quiz's id and the record read back for it are
    values, an LLM attempt is `reply(k)` (None when the call, its timeout or
    the JSON decoding raised), `convert_blocks_to_right_format` is `convert`,
    and Python's `str` of a non-string value is `repr`. */
module AiQuestions {

  import opened Common
  import opened Json
  import opened Text

  /** The string values of `TaskType.QUIZ` and `TaskType.LEARNING_MATERIAL`. */
  const QuizName := "quiz"
  const LearningName := "learning_material"

  /** The quiz test of the route: the type is the quiz value, in any letter case. */
  predicate IsQuiz(t: string)
  {
    t == QuizName || Lower(t) == QuizName
  }

  /** The learning-material test of the route: the type is the learning
      material value, in any letter case. */
  predicate IsLearning(t: string)
  {
    t == LearningName || Lower(t) == LearningName
  }

  /** Both tests come down to comparing the lower-cased type, so no type is both. */
  lemma TypeTestsIgnoreCase(t: string)
    ensures IsQuiz(t) <==> Lower(t) == QuizName
    ensures IsLearning(t) <==> Lower(t) == LearningName
    ensures !(IsQuiz(t) && IsLearning(t))
  {
    assert Lower(QuizName) == QuizName;
    assert Lower(LearningName) == LearningName;
  }

  /** Python's `str(v)`: a string is itself; anything else is rendered by `repr`. */
  function Str(v: Json.Value, repr: Json.Value -> string): (s: string)
    ensures v.JStr? ==> s == v.s
    ensures !v.JStr? ==> s == repr(v)
  {
    if v.JStr? then v.s else repr(v)
  }

  // ---------------------------------------------------------------------
  // Choosing the quiz

  datatype TaskRec = TaskRec(taskType: string, title: Json.Value)

  datatype Meta = Meta(courseId: int, milestoneId: int)

  /** The arguments of `create_draft_task_for_course` in the redirect. */
  datatype NewQuiz = NewQuiz(title: string, taskType: string, courseId: int, milestoneId: int)

  /** The quiz created on the way (kept even when the request then fails),
      and the task id and record generation goes on with, or the status. */
  datatype Target = Target(created: Option<NewQuiz>, chosen: Result<(int, TaskRec)>)

  function QuizTitle(title: Json.Value, repr: Json.Value -> string): (s: string)
    ensures Truthy(title) && title.JStr? ==> s == "Quiz: " + title.s
    ensures !Truthy(title) ==> s == "Quiz: Generated"
  {
    "Quiz: " + Str(Or(title, JStr("Generated")), repr)
  }

  /** Lines 21-56: 404 for a missing task, 400 for missing metadata, the
      redirect of a learning-material task to a new quiz `newId` (read back as
      `refetched`; subscripting a missing record raises, status 500), and 400
      unless the task finally chosen is a quiz. */
  function ChooseTarget(taskId: int, task: Option<TaskRec>, meta: Option<Meta>,
                        newId: int, refetched: Option<TaskRec>, repr: Json.Value -> string): (r: Target)
    ensures task.None? ==> r == Target(None, Err(NotFound))
    ensures task.Some? && meta.None? ==> r == Target(None, Err(BadRequest))
    ensures r.created.Some? <==> task.Some? && meta.Some? && IsLearning(task.value.taskType)
    ensures r.created.Some? ==>
              r.created.value == NewQuiz(QuizTitle(task.value.title, repr), QuizName,
                                         meta.value.courseId, meta.value.milestoneId)
    ensures r.chosen.Ok? ==> IsQuiz(r.chosen.value.1.taskType)
    ensures r.chosen.Ok? ==> r.chosen.value.0 == (if r.created.Some? then newId else taskId)
    ensures r.chosen.Err? ==> r.chosen.status in {NotFound, BadRequest, ServerError}
  {
    if task.None? then Target(None, Err(NotFound))
    else if meta.None? then Target(None, Err(BadRequest))
    else
      var t := task.value;
      var m := meta.value;
      if IsLearning(t.taskType) then
        var created := Some(NewQuiz(QuizTitle(t.title, repr), QuizName, m.courseId, m.milestoneId));
        match refetched
        case None => Target(created, Err(ServerError))
        case Some(nt) => Target(created, if IsQuiz(nt.taskType) then Ok((newId, nt)) else Err(BadRequest))
      else
        Target(None, if IsQuiz(t.taskType) then Ok((taskId, t)) else Err(BadRequest))
  }

  /** A quiz task is generated for in place; nothing is created. */
  lemma QuizIsUsedInPlace(taskId: int, task: TaskRec, meta: Meta, newId: int,
                          refetched: Option<TaskRec>, repr: Json.Value -> string)
    requires IsQuiz(task.taskType)
    ensures ChooseTarget(taskId, Some(task), Some(meta), newId, refetched, repr) == Target(None, Ok((taskId, task)))
  {
    TypeTestsIgnoreCase(task.taskType);
  }

  /** A learning-material task whose new quiz reads back as a quiz moves
      generation to the new quiz; any other non-quiz type is rejected with 400. */
  lemma LearningRedirects(taskId: int, task: TaskRec, meta: Meta, newId: int,
                          created: TaskRec, repr: Json.Value -> string)
    requires IsLearning(task.taskType) && IsQuiz(created.taskType)
    ensures ChooseTarget(taskId, Some(task), Some(meta), newId, Some(created), repr).chosen == Ok((newId, created))
  {
  }

  lemma OtherTypesRejected(taskId: int, task: TaskRec, meta: Meta, newId: int,
                           refetched: Option<TaskRec>, repr: Json.Value -> string)
    requires !IsLearning(task.taskType) && !IsQuiz(task.taskType)
    ensures ChooseTarget(taskId, Some(task), Some(meta), newId, refetched, repr) == Target(None, Err(BadRequest))
  {
  }

  // ---------------------------------------------------------------------
  // Retrying the LLM call

  const MaxAttempts: nat := 3

  /** Seconds slept after failed attempt `k` (when another attempt follows):
      1.5 seconds after the first, growing by 1.5 seconds per attempt. */
  function Backoff(k: nat): (s: real)
    ensures k == 0 ==> s == 1.5
    ensures k > 0 ==> s == Backoff(k - 1) + 1.5
  {
    1.5 * ((k + 1) as real)
  }

  /** Lines 116-136: at most three attempts, stopping at the first success;
      a failure of the third raises 502; a sleep of `Backoff(k)` follows each
      failed attempt `k` but the last. */
  method Retry(reply: nat -> Option<Json.Value>) returns (r: Result<Json.Value>, attempts: nat, sleeps: seq<real>)
    ensures 1 <= attempts <= MaxAttempts
    ensures forall k :: 0 <= k < attempts - 1 ==> reply(k).None?
    ensures r.Ok? ==> reply(attempts - 1) == Some(r.value)
    ensures r.Err? ==> r.status == BadGateway && attempts == MaxAttempts
    ensures r.Err? <==> forall k :: 0 <= k < MaxAttempts ==> reply(k).None?
    ensures |sleeps| == attempts - 1
    ensures forall k :: 0 <= k < |sleeps| ==> sleeps[k] == Backoff(k)
  {
    var k: nat := 0;
    sleeps := [];
    while true
      invariant k < MaxAttempts
      invariant |sleeps| == k
      invariant forall j :: 0 <= j < k ==> sleeps[j] == Backoff(j)
      invariant forall j :: 0 <= j < k ==> reply(j).None?
      decreases MaxAttempts - k
    {
      var got := reply(k);
      if got.Some? {
        return Ok(got.value), k + 1, sleeps;
      }
      if k == MaxAttempts - 1 {
        return Err(BadGateway), k + 1, sleeps;
      }
      sleeps := sleeps + [Backoff(k)];
      k := k + 1;
    }
  }

  // ---------------------------------------------------------------------
  // Adapting the LLM's questions

  /** One question in the shape `update_draft_quiz` stores. */
  datatype DbQuestion = DbQuestion(
    questionType: Json.Value,
    title: Json.Value,
    blocks: Json.Value,
    answer: Json.Value,
    inputType: Json.Value,
    responseType: string,
    codingLanguages: Json.Value,
    context: Json.Value,
    maxAttempts: Option<int>,
    isFeedbackShown: bool,
    scorecardId: Option<int>)

  /** The chat response type every generated question gets. */
  const ChatResponse := "chat"

  /** The single paragraph block holding a correct answer's text. */
  function AnswerBlocks(text: string): Json.Value
  {
    JArr([JObj(map[
      "type" := JStr("paragraph"),
      "content" := JArr([JObj(map["type" := JStr("text"), "text" := JStr(text), "styles" := JObj(map[])])])])])
  }

  /** Adapting the fields of the raw question at `index` to the stored form:
      defaults for a missing type, title and input type, the blocks and the
      answer converted, falsy optional fields collapsed to None. */
  function Adapted(f: map<string, Json.Value>, index: nat, convert: Json.Value -> Json.Value,
                   repr: Json.Value -> string): (d: DbQuestion)
    ensures d.questionType == if Truthy(Get(f, "question_type")) then Get(f, "question_type") else JStr("objective")
    ensures d.title == if Truthy(Get(f, "title")) then Get(f, "title") else JStr("Question " + Decimal(index + 1))
    ensures d.inputType == if Truthy(Get(f, "answer_type")) then Get(f, "answer_type") else JStr("text")
    ensures d.blocks == convert(if Truthy(Get(f, "blocks")) then Get(f, "blocks") else JArr([]))
    ensures !Truthy(Get(f, "correct_answer")) ==> d.answer == JNull
    ensures Truthy(Get(f, "correct_answer")) ==> d.answer == convert(AnswerBlocks(Str(Get(f, "correct_answer"), repr)))
    ensures d.responseType == ChatResponse
    ensures d.maxAttempts.None? && d.isFeedbackShown && d.scorecardId.None?
    ensures Truthy(Get(f, "coding_languages")) ==> d.codingLanguages == Get(f, "coding_languages")
    ensures !Truthy(Get(f, "coding_languages")) ==> d.codingLanguages == JNull
    ensures Truthy(Get(f, "context")) ==> d.context == Get(f, "context")
    ensures !Truthy(Get(f, "context")) ==> d.context == JNull
  {
    var answerText := Get(f, "correct_answer");
    DbQuestion(
      Or(Get(f, "question_type"), JStr("objective")),
      Or(Get(f, "title"), JStr("Question " + Decimal(index + 1))),
      convert(Or(Get(f, "blocks"), JArr([]))),
      if Truthy(answerText) then convert(AnswerBlocks(Str(answerText, repr))) else JNull,
      Or(Get(f, "answer_type"), JStr("text")),
      ChatResponse,
      OrNull(Get(f, "coding_languages")),
      OrNull(Get(f, "context")),
      None,
      true,
      None)
  }

  /** The loop body for the raw question at `index`; None when it is not a
      dict (reading a field raises). */
  function Adapt(q: Json.Value, index: nat, convert: Json.Value -> Json.Value,
                 repr: Json.Value -> string): (r: Option<DbQuestion>)
    ensures r.Some? <==> q.JObj?
    ensures r.Some? ==> r.value == Adapted(q.fields, index, convert, repr)
  {
    if !q.JObj? then None else Some(Adapted(q.fields, index, convert, repr))
  }

  /** The whole loop, numbering from `start`: one stored question per raw
      question, in order; None when some raw question is not a dict. */
  function AdaptFrom(qs: seq<Json.Value>, start: nat, convert: Json.Value -> Json.Value,
                     repr: Json.Value -> string): (r: Option<seq<DbQuestion>>)
    ensures r.Some? <==> forall k :: 0 <= k < |qs| ==> qs[k].JObj?
    ensures r.Some? ==> |r.value| == |qs|
    ensures r.Some? ==> forall k :: 0 <= k < |qs| ==> Adapt(qs[k], start + k, convert, repr) == Some(r.value[k])
  {
    if qs == [] then Some([])
    else
      match (Adapt(qs[0], start, convert, repr), AdaptFrom(qs[1..], start + 1, convert, repr))
      case (Some(d), Some(rest)) => Some([d] + rest)
      case (None, _) => None
      case (Some(_), None) =>
        assert forall k :: 1 <= k < |qs| ==> qs[k] == qs[1..][k - 1];
        None
  }

  /** The `update_draft_quiz` call. */
  datatype DraftUpdate = DraftUpdate(taskId: int, title: Json.Value, questions: seq<DbQuestion>)

  /** Lines 138-189 once a reply has been decoded: its `title` or the task's,
      and its `questions` (or none) adapted; a reply that is not a dict, or a
      question list that cannot be walked as dicts, raises (status 500). */
  function Finish(taskId: int, topicTitle: Json.Value, content: Json.Value,
                  convert: Json.Value -> Json.Value, repr: Json.Value -> string): (r: Result<DraftUpdate>)
    ensures r.Err? ==> r.status == ServerError
    ensures r.Ok? <==> content.JObj? && (var raw := Or(Get(content.fields, "questions"), JArr([]));
                                         raw.JArr? && forall k :: 0 <= k < |raw.items| ==> raw.items[k].JObj?)
    ensures r.Ok? ==> content.JObj? && r.value.taskId == taskId
    ensures r.Ok? ==> r.value.title == if Truthy(Get(content.fields, "title")) then Get(content.fields, "title") else topicTitle
    ensures r.Ok? && !Truthy(Get(content.fields, "questions")) ==> r.value.questions == []
    ensures r.Ok? && Truthy(Get(content.fields, "questions")) ==>
              Get(content.fields, "questions").JArr?
              && |r.value.questions| == |Get(content.fields, "questions").items|
  {
    if !content.JObj? then Err(ServerError)
    else
      var raw := Or(Get(content.fields, "questions"), JArr([]));
      if !raw.JArr? then Err(ServerError)
      else
        match AdaptFrom(raw.items, 0, convert, repr)
        case None => Err(ServerError)
        case Some(qs) => Ok(DraftUpdate(taskId, Or(Get(content.fields, "title"), topicTitle), qs))
  }

  /** The stored question `k` is the raw question `k` adapted with the
      number `k + 1` in its default title. */
  lemma FinishAdaptsEachQuestion(taskId: int, topicTitle: Json.Value, content: Json.Value,
                                 convert: Json.Value -> Json.Value, repr: Json.Value -> string, k: nat)
    requires Finish(taskId, topicTitle, content, convert, repr).Ok?
    requires k < |Finish(taskId, topicTitle, content, convert, repr).value.questions|
    ensures var raw := Get(content.fields, "questions");
            && raw.JArr? && k < |raw.items|
            && Adapt(raw.items[k], k, convert, repr) == Some(Finish(taskId, topicTitle, content, convert, repr).value.questions[k])
  {
  }

  // ---------------------------------------------------------------------
  // The route

  datatype Outcome = Outcome(created: Option<NewQuiz>, result: Result<DraftUpdate>)

  /** `generate_questions_for_task`, returning how many LLM attempts were made. */
  method GenerateQuestions(taskId: int, task: Option<TaskRec>, meta: Option<Meta>, newId: int,
                           refetched: Option<TaskRec>, reply: nat -> Option<Json.Value>,
                           convert: Json.Value -> Json.Value, repr: Json.Value -> string)
    returns (o: Outcome, attempts: nat)
    ensures var target := ChooseTarget(taskId, task, meta, newId, refetched, repr);
            && o.created == target.created
            && (target.chosen.Err? ==> o.result == Err(target.chosen.status) && attempts == 0)
            && (target.chosen.Ok? ==> 1 <= attempts <= MaxAttempts)
            && (target.chosen.Ok? ==>
                  (o.result == Err(BadGateway) <==> forall k :: 0 <= k < MaxAttempts ==> reply(k).None?))
            && (target.chosen.Ok? && o.result.Ok? ==> o.result.value.taskId == target.chosen.value.0)
            && (target.chosen.Ok? && o.result != Err(BadGateway) ==>
                  reply(attempts - 1).Some?
                  && o.result == Finish(target.chosen.value.0, target.chosen.value.1.title,
                                        reply(attempts - 1).value, convert, repr))
  {
    var target := ChooseTarget(taskId, task, meta, newId, refetched, repr);
    if target.chosen.Err? {
      return Outcome(target.created, Err(target.chosen.status)), 0;
    }
    var chosenId := target.chosen.value.0;
    var chosen := target.chosen.value.1;
    var content, sleeps;
    content, attempts, sleeps := Retry(reply);
    if content.Err? {
      return Outcome(target.created, Err(content.status)), attempts;
    }
    o := Outcome(target.created, Finish(chosenId, chosen.title, content.value, convert, repr));
  }
}

=== FILE: common.dfy ===
/** Shared failure-carrying datatypes.

    The backend's routes signal failure by raising an HTTP exception with a
    status code; `Result` carries that status instead. */
module Common {

  datatype Option<+T> = None | Some(value: T) {
    function GetOr(default: T): T
    {
      match this
      case Some(v) => v
      case None => default
    }
  }

  /** `Err(status)` stands for an `HTTPException(status_code=status)` raised
      by a route, or for an unhandled exception (status 500). */
  datatype Result<+T> = Ok(value: T) | Err(status: int)

  const NotFound := 404
  const BadRequest := 400
  const BadGateway := 502
  const ServerError := 500
}

=== FILE: concurrency.dfy ===
/** `async_batch_gather` and `async_index_wrapper` in
    `src/api/utils/concurrency.py`. Awaiting a coroutine is `run(x)`; the
    progress bar and the one-second pause between batches are left out, so a
    batch's gather is the list of its results in order. The batch size is a
    parameter; the source's default of 12 is one value of it. */
module Concurrency {

  function Min(a: int, b: int): int
  {
    if a <= b then a else b
  }

  /** The batches laid end to end. */
  function Concat<T>(bs: seq<seq<T>>): (r: seq<T>)
  {
    if bs == [] then [] else Concat(bs[..|bs| - 1]) + bs[|bs| - 1]
  }

  lemma ConcatSnoc<T>(bs: seq<seq<T>>, b: seq<T>)
    ensures Concat(bs + [b]) == Concat(bs) + b
  {
    assert (bs + [b])[..|bs|] == bs;
  }

  /** Where batch `c` starts: `c * size`, counted up one batch at a time. */
  function Start(c: nat, size: nat): nat
  {
    if c == 0 then 0 else Start(c - 1, size) + size
  }

  lemma {:induction false} StartIsMultiple(c: nat, size: nat)
    ensures Start(c, size) == c * size
  {
    if c > 0 {
      StartIsMultiple(c - 1, size);
    }
  }

  /** The batch `c` of `range(0, len(xs), size)`: `xs[c*size : c*size + size]`. */
  ghost predicate IsBatch<T>(xs: seq<T>, size: nat, c: nat, b: seq<T>)
  {
    Start(c, size) <= |xs| && b == xs[Start(c, size)..Min(Start(c, size) + size, |xs|)]
  }

  /** `batches` are the first batches of `xs`, ending where batch `|batches|` would start. */
  ghost predicate Batched<T>(xs: seq<T>, size: nat, batches: seq<seq<T>>, next: nat)
  {
    && next == Start(|batches|, size)
    && (forall c :: 0 <= c < |batches| ==> IsBatch(xs, size, c, batches[c]) && batches[c] != [])
    && (forall c :: 0 <= c < |batches| - 1 ==> |batches[c]| == size)
  }

  lemma BatchedStep<T>(xs: seq<T>, size: nat, batches: seq<seq<T>>, next: nat)
    requires size > 0 && next < |xs| && Batched(xs, size, batches, next)
    ensures Batched(xs, size, batches + [xs[next..Min(next + size, |xs|)]], next + size)
  {
    var batch := xs[next..Min(next + size, |xs|)];
    var bs := batches + [batch];
    assert IsBatch(xs, size, |batches|, batch);
    if |batches| > 0 {
      var last := |batches| - 1;
      assert Start(last, size) + size == next;
      assert |batches[last]| == size;
    }
    assert forall c :: 0 <= c < |batches| ==> bs[c] == batches[c];
  }

  /** `async_batch_gather`: the batches are consecutive slices starting at
      multiples of `batchSize`, all full but possibly the last, and together
      they are the input; the results are the batches' results in batch order,
      so result `k` belongs to input `k`. */
  method BatchGather<T, U>(xs: seq<T>, run: T -> U, batchSize: nat) returns (results: seq<U>, batches: seq<seq<T>>)
    requires batchSize > 0
    ensures |results| == |xs|
    ensures forall k :: 0 <= k < |xs| ==> results[k] == run(xs[k])
    ensures Concat(batches) == xs
    ensures forall c :: 0 <= c < |batches| ==> IsBatch(xs, batchSize, c, batches[c])
    ensures forall c :: 0 <= c < |batches| ==> batches[c] != []
    ensures forall c :: 0 <= c < |batches| - 1 ==> |batches[c]| == batchSize
    ensures xs == [] <==> batches == []
  {
    results := [];
    batches := [];
    var i := 0;
    while i < |xs|
      invariant Batched(xs, batchSize, batches, i)
      invariant Concat(batches) == xs[..Min(i, |xs|)]
      invariant |results| == Min(i, |xs|)
      invariant forall k :: 0 <= k < |results| ==> results[k] == run(xs[k])
      decreases |xs| - i
    {
      var end := Min(i + batchSize, |xs|);
      var batch := xs[i..end];
      var batchResults := seq(|batch|, k requires 0 <= k < |batch| => run(batch[k]));
      BatchedStep(xs, batchSize, batches, i);
      ConcatSnoc(batches, batch);
      assert xs[..i] + batch == xs[..end];
      assert forall k :: i <= k < end ==> (results + batchResults)[k] == run(xs[k]);
      results := results + batchResults;
      batches := batches + [batch];
      i := i + batchSize;
    }
    assert xs[..|xs|] == xs;
  }

  /** `async_index_wrapper`: the run's output, tagged with the index unchanged. */
  function IndexWrapper<A, B>(run: A -> B, index: int, arg: A): (int, B)
  {
    (index, run(arg))
  }

  /** Gathering index-wrapped runs: every result carries its own position,
      whatever the batching. */
  method GatherIndexed<A, B>(args: seq<A>, run: A -> B, batchSize: nat) returns (results: seq<(int, B)>)
    requires batchSize > 0
    ensures |results| == |args|
    ensures forall k :: 0 <= k < |args| ==> results[k] == (k, run(args[k]))
  {
    var tagged := seq(|args|, k requires 0 <= k < |args| => (k, args[k]));
    var batches;
    results, batches := BatchGather(tagged, (p: (int, A)) => IndexWrapper(run, p.0, p.1), batchSize);
  }
}

=== FILE: json.dfy ===
/** JSON-like values as the Python code sees them after `json.loads`, with
    Python's notion of truthiness. Python `None` is `JNull`; a missing key
    read with `dict.get(key)` is also `JNull`. Numbers are integers only. */
module Json {

  import opened Common

  datatype Value =
    | JNull
    | JBool(b: bool)
    | JNum(n: int)
    | JStr(s: string)
    | JArr(items: seq<Value>)
    | JObj(fields: map<string, Value>)

  /** `bool(v)` in Python: None, False, 0, "", [] and {} are false. */
  predicate Truthy(v: Value)
  {
    match v
    case JNull => false
    case JBool(b) => b
    case JNum(n) => n != 0
    case JStr(s) => s != ""
    case JArr(xs) => xs != []
    case JObj(m) => m != map[]
  }

  /** `d.get(key)` on a dict. */
  function Get(m: map<string, Value>, key: string): (v: Value)
    ensures key in m ==> v == m[key]
    ensures key !in m ==> v == JNull
  {
    if key in m then m[key] else JNull
  }

  /** Python's `a or b`: the left operand when it is truthy, else the right one. */
  function Or(a: Value, b: Value): (v: Value)
    ensures Truthy(a) ==> v == a
    ensures !Truthy(a) ==> v == b
  {
    if Truthy(a) then a else b
  }

  /** Python's `x or None`: a falsy value collapses to None. */
  function OrNull(a: Value): (v: Value)
    ensures Truthy(v) <==> Truthy(a)
    ensures Truthy(a) ==> v == a
    ensures !Truthy(a) ==> v == JNull
  {
    if Truthy(a) then a else JNull
  }

  /** The "text" field of a props value, a falsy props value counting as an
      empty dict; reading it raises (None here) when the props value is
      truthy but not a dict. */
  function PropsText(v: Value): (r: Option<Value>)
    ensures !Truthy(v) ==> r == Some(JNull)
    ensures v.JObj? ==> r == Some(Get(v.fields, "text"))
    ensures r.None? <==> Truthy(v) && !v.JObj?
  {
    if !Truthy(v) then Some(JNull)
    else if v.JObj? then Some(Get(v.fields, "text"))
    else None
  }
}

=== FILE: mock_schedule.dfy ===
/** The mock branch of `generate_course_schedule` in
    `src/api/routes/ai_schedule.py`: tasks are flattened in milestone order
    and each is placed on the earliest allowed day at or after a cursor that
    then moves one day past it.

    Dates are day ordinals (see ScheduleTypes). Python's `date.weekday()` of
    ordinal `d` is `(d + 6) % 7` (Monday is 0), so the JavaScript weekday
    `(weekday() + 1) % 7` (Sunday is 0) is `d % 7`. */
module MockSchedule {

  import opened Common
  import Text
  import opened ScheduleTypes
  import ScheduleStore

  // ---------------------------------------------------------------------
  // Request and course

  datatype ScheduleRequest = ScheduleRequest(
    startDate: Option<Date>,
    includeWeekends: Option<bool>,
    excludeWeekdays: Option<seq<int>>,
    excludeDates: Option<seq<Date>>,
    timezone: Option<string>)

  /** The request used when none is sent: every field unset. */
  const DefaultRequest := ScheduleRequest(None, None, None, None, None)

  datatype Task = Task(id: int, title: string, taskType: string)
  datatype Milestone = Milestone(id: int, tasks: seq<Task>)
  datatype Course = Course(id: int, milestones: seq<Milestone>)

  /** `normalize_weekday_indices`: no exclusions when none are given,
      otherwise the given JavaScript weekday indices as they are. */
  function NormalizeWeekdayIndices(excludeWeekdays: Option<seq<int>>): (r: seq<int>)
    ensures excludeWeekdays.None? ==> r == []
    ensures excludeWeekdays.Some? ==> r == excludeWeekdays.value
  {
    match excludeWeekdays
    case None => []
    case Some(ws) => if ws == [] then [] else ws
  }

  // ---------------------------------------------------------------------
  // Flattening

  datatype FlatTask = FlatTask(taskId: int, milestoneId: int, title: string, rawType: string)

  /** One entry of the flat task list; its raw type is the task type in
      lower case. */
  function FlatOf(m: Milestone, t: Task): FlatTask
  {
    FlatTask(t.id, m.id, t.title, Text.Lower(t.taskType))
  }

  function FlatTasks(m: Milestone, k: nat): (r: seq<FlatTask>)
    requires k <= |m.tasks|
    ensures |r| == |m.tasks| - k
    ensures forall i :: 0 <= i < |r| ==> r[i] == FlatOf(m, m.tasks[k + i])
    decreases |m.tasks| - k
  {
    if k == |m.tasks| then [] else [FlatOf(m, m.tasks[k])] + FlatTasks(m, k + 1)
  }

  /** The ids of the milestones. */
  function MilestoneIds(ms: seq<Milestone>): set<int>
  {
    if ms == [] then {} else {ms[0].id} + MilestoneIds(ms[1..])
  }

  /** The nested loops that build `tasks_flat`: every entry carries the id
      of one of the milestones. */
  function Flatten(ms: seq<Milestone>): (r: seq<FlatTask>)
    ensures forall k :: 0 <= k < |r| ==> r[k].milestoneId in MilestoneIds(ms)
    ensures ms == [] ==> r == []
  {
    if ms == [] then [] else FlatTasks(ms[0], 0) + Flatten(ms[1..])
  }

  /** Number of tasks in the milestones before index `m`. */
  function Offset(ms: seq<Milestone>, m: nat): nat
    requires m <= |ms|
  {
    if m == 0 then 0 else Offset(ms, m - 1) + |ms[m - 1].tasks|
  }

  lemma {:induction false} FlattenAppend(a: seq<Milestone>, b: seq<Milestone>)
    ensures Flatten(a + b) == Flatten(a) + Flatten(b)
  {
    if a != [] {
      FlattenAppend(a[1..], b);
      assert (a + b)[1..] == a[1..] + b;
    } else {
      assert a + b == b;
    }
  }

  lemma {:induction false} FlattenPrefixLength(ms: seq<Milestone>, m: nat)
    requires m <= |ms|
    ensures |Flatten(ms[..m])| == Offset(ms, m)
  {
    if m > 0 {
      FlattenPrefixLength(ms, m - 1);
      assert ms[..m] == ms[..m - 1] + [ms[m - 1]];
      FlattenAppend(ms[..m - 1], [ms[m - 1]]);
      assert Flatten([ms[m - 1]]) == FlatTasks(ms[m - 1], 0) + Flatten([]);
    }
  }

  /** Flattening keeps milestone order, then task order within a milestone:
      task `t` of milestone `m` is entry `Offset(ms, m) + t`, and there is one
      entry per task. */
  lemma FlattenOrder(ms: seq<Milestone>, m: nat, t: nat)
    requires m < |ms| && t < |ms[m].tasks|
    ensures Offset(ms, m) + t < |Flatten(ms)|
    ensures Flatten(ms)[Offset(ms, m) + t] == FlatOf(ms[m], ms[m].tasks[t])
  {
    assert ms == ms[..m] + ([ms[m]] + ms[m + 1..]);
    FlattenAppend(ms[..m], [ms[m]] + ms[m + 1..]);
    assert Flatten([ms[m]] + ms[m + 1..]) == FlatTasks(ms[m], 0) + Flatten(ms[m + 1..]) by {
      assert ([ms[m]] + ms[m + 1..])[1..] == ms[m + 1..];
    }
    FlattenPrefixLength(ms, m);
  }

  lemma FlattenLength(ms: seq<Milestone>)
    ensures |Flatten(ms)| == Offset(ms, |ms|)
  {
    FlattenPrefixLength(ms, |ms|);
    assert ms[..|ms|] == ms;
  }

  // ---------------------------------------------------------------------
  // Allowed days

  datatype Config = Config(includeWeekends: bool, excludeWeekdays: seq<int>, excludeDates: seq<Date>)

  /** The JavaScript weekday of a date, Sunday = 0 .. Saturday = 6: Python's
      Monday-based weekday shifted by one. Ordinal 1 is a Monday, so the
      ordinal modulo 7 gives it directly. */
  function JsWeekday(d: Date): (w: int)
    ensures 0 <= w < 7
    ensures w == ((d + 6) % 7 + 1) % 7
  {
    d % 7
  }

  predicate WeekdayAllowed(cfg: Config, w: int)
  {
    w !in cfg.excludeWeekdays && (cfg.includeWeekends || (w != 0 && w != 6))
  }

  /** A day the inner `while True` loop stops on: not an excluded date, not
      an excluded weekday, and not a weekend unless weekends are allowed. */
  predicate Allowed(cfg: Config, d: Date)
  {
    d !in cfg.excludeDates && WeekdayAllowed(cfg, JsWeekday(d))
  }

  /** The skip loop terminates exactly when some weekday survives the weekday rules. */
  ghost predicate SomeWeekdayAllowed(cfg: Config)
  {
    exists w :: 0 <= w < 7 && WeekdayAllowed(cfg, w)
  }

  function FirstAllowedWeekdayFrom(cfg: Config, w: nat): (r: nat)
    requires w <= 7
    requires exists v :: w <= v < 7 && WeekdayAllowed(cfg, v)
    ensures w <= r < 7 && WeekdayAllowed(cfg, r)
    decreases 7 - w
  {
    if WeekdayAllowed(cfg, w) then w else FirstAllowedWeekdayFrom(cfg, w + 1)
  }

  function Horizon(dates: seq<Date>): (h: nat)
    ensures forall i :: 0 <= i < |dates| ==> dates[i] <= h
  {
    if dates == [] then 0
    else
      var rest := Horizon(dates[1..]);
      assert forall i :: 1 <= i < |dates| ==> dates[i] == dates[1..][i - 1];
      if dates[0] > rest then dates[0] else rest
  }

  /** Termination measure of the skip loop: seven units per possibly
      excluded date still ahead, plus the distance to the next day whose
      weekday is allowed. */
  function SkipMeasure(cfg: Config, d: Date): nat
    requires SomeWeekdayAllowed(cfg)
  {
    var h := Horizon(cfg.excludeDates);
    var w := FirstAllowedWeekdayFrom(cfg, 0);
    7 * (if d <= h then h - d + 1 else 0) + (w - d) % 7
  }

  lemma SkipMeasureDecreases(cfg: Config, d: Date)
    requires SomeWeekdayAllowed(cfg)
    requires !Allowed(cfg, d)
    ensures SkipMeasure(cfg, d + 1) < SkipMeasure(cfg, d)
  {
    var h := Horizon(cfg.excludeDates);
    var w := FirstAllowedWeekdayFrom(cfg, 0);
    if d > h {
      assert d !in cfg.excludeDates;
      assert JsWeekday(d) != w;
      assert (w - d) % 7 != 0;
      assert (w - (d + 1)) % 7 == (w - d) % 7 - 1;
    }
  }

  /** `d` is allowed and no allowed day lies between `from` and it. */
  ghost predicate EarliestFrom(cfg: Config, from: Date, d: Date)
  {
    from <= d && Allowed(cfg, d) && forall e: Date :: from <= e < d ==> !Allowed(cfg, e)
  }

  /** The inner `while True` loop: the earliest allowed day at or after `d`. */
  function NextAllowed(cfg: Config, d: Date): (r: Date)
    requires SomeWeekdayAllowed(cfg)
    ensures EarliestFrom(cfg, d, r)
    decreases SkipMeasure(cfg, d)
  {
    if Allowed(cfg, d) then d
    else
      SkipMeasureDecreases(cfg, d);
      NextAllowed(cfg, d + 1)
  }

  // ---------------------------------------------------------------------
  // Placement

  /** The schedule item for a task: a 30-minute quiz when its raw type is
      "quiz", otherwise a 90-minute learning item, carrying the task's ids
      and title. */
  function ItemFor(t: FlatTask): (r: ScheduleItem)
    ensures r.kind == "quiz" <==> t.rawType == "quiz"
    ensures r.kind == "quiz" || r.kind == "learning"
    ensures r.durationMinutes == (if r.kind == "learning" then 90 else 30)
    ensures r.taskId == Some(t.taskId) && r.milestoneId == Some(t.milestoneId) && r.title == t.title
  {
    var kind := if t.rawType == "quiz" then "quiz" else "learning";
    ScheduleItem(kind, Some(t.taskId), Some(t.milestoneId), t.title, if kind == "learning" then 90 else 30)
  }

  datatype Placed = Placed(date: Date, item: ScheduleItem)

  /** Placement dates strictly increase along the sequence. */
  ghost predicate Increasing(ps: seq<Placed>)
  {
    forall i, j :: 0 <= i < j < |ps| ==> ps[i].date < ps[j].date
  }

  /** Each placement is on the earliest allowed day at or after the cursor it
      met: `cursor` for the first, the day after the previous placement for
      the others. */
  ghost predicate Greedy(cfg: Config, cursor: Date, r: seq<Placed>)
  {
    && (|r| > 0 ==> EarliestFrom(cfg, cursor, r[0].date))
    && (forall i :: 0 < i < |r| ==> EarliestFrom(cfg, r[i - 1].date + 1, r[i].date))
  }

  /** The outer `for task in tasks_flat` loop from a cursor: each task goes
      on `NextAllowed(cursor)` and the cursor moves to the day after. */
  function Place(cfg: Config, tasks: seq<FlatTask>, cursor: Date): (r: seq<Placed>)
    requires SomeWeekdayAllowed(cfg)
    ensures |r| == |tasks|
    ensures forall i :: 0 <= i < |r| ==> r[i].item == ItemFor(tasks[i])
    ensures Greedy(cfg, cursor, r)
    decreases |tasks|
  {
    if tasks == [] then []
    else
      var day := NextAllowed(cfg, cursor);
      [Placed(day, ItemFor(tasks[0]))] + Place(cfg, tasks[1..], day + 1)
  }

  /** A greedy placement lies on allowed days at or after the cursor, in
      strictly increasing date order. */
  lemma {:induction false} GreedyIsIncreasing(cfg: Config, cursor: Date, r: seq<Placed>)
    requires Greedy(cfg, cursor, r)
    ensures forall i :: 0 <= i < |r| ==> cursor <= r[i].date && Allowed(cfg, r[i].date)
    ensures Increasing(r)
  {
    if |r| > 1 {
      var n := |r| - 1;
      var init := r[..n];
      GreedyIsIncreasing(cfg, cursor, init);
      assert forall i :: 0 <= i < n ==> r[i].date <= r[n - 1].date;
    }
  }

  // ---------------------------------------------------------------------
  // Grouping by date (`scheduled_by_date`, then one ScheduleDay per key)

  /** The position of the day holding `date`, if any. */
  function IndexOfDate(days: seq<ScheduleDay>, date: Date): (k: Option<nat>)
    ensures k.Some? ==> k.value < |days| && days[k.value].date == date
    ensures k.None? <==> forall i :: 0 <= i < |days| ==> days[i].date != date
  {
    if days == [] then None
    else if days[|days| - 1].date == date then Some(|days| - 1)
    else IndexOfDate(days[..|days| - 1], date)
  }

  /** Every date has at most one day, as the keys of a dict. */
  ghost predicate DistinctDates(days: seq<ScheduleDay>)
  {
    forall a, b :: 0 <= a < b < |days| ==> days[a].date != days[b].date
  }

  /** Append an item under its date: to the existing day for that date, or to
      a new day at the end (a dict keeps insertion order). */
  function AddItem(days: seq<ScheduleDay>, p: Placed): (r: seq<ScheduleDay>)
    ensures IndexOfDate(days, p.date).Some? ==>
              |r| == |days| && r[IndexOfDate(days, p.date).value].items == days[IndexOfDate(days, p.date).value].items + [p.item]
    ensures IndexOfDate(days, p.date).None? ==> |r| == |days| + 1 && r[|days|] == ScheduleDay(p.date, [p.item], None)
    ensures forall i :: 0 <= i < |days| && days[i].date != p.date ==> r[i] == days[i]
    ensures forall i :: 0 <= i < |r| ==> (i < |days| && r[i].date == days[i].date) || r[i].date == p.date
    ensures DistinctDates(days) ==> DistinctDates(r)
  {
    match IndexOfDate(days, p.date)
    case Some(k) => days[k := days[k].(items := days[k].items + [p.item])]
    case None => days + [ScheduleDay(p.date, [p.item], None)]
  }

  /** The `scheduled_by_date` dict as a list of days in insertion order. */
  function Group(ps: seq<Placed>): (r: seq<ScheduleDay>)
    ensures |r| <= |ps|
    ensures DistinctDates(r)
    ensures forall k :: 0 <= k < |r| ==> r[k].items != []
  {
    if ps == [] then [] else AddItem(Group(ps[..|ps| - 1]), ps[|ps| - 1])
  }

  function SingleDay(p: Placed): ScheduleDay
  {
    ScheduleDay(p.date, [p.item], None)
  }

  function OneItemDays(ps: seq<Placed>): (r: seq<ScheduleDay>)
    ensures |r| == |ps|
    ensures forall i :: 0 <= i < |ps| ==> r[i] == SingleDay(ps[i])
  {
    if ps == [] then [] else OneItemDays(ps[..|ps| - 1]) + [SingleDay(ps[|ps| - 1])]
  }

  /** With strictly increasing dates, grouping gives one day per placed
      item, in order, each holding exactly that item. */
  lemma {:induction false} GroupDistinctDates(ps: seq<Placed>)
    requires Increasing(ps)
    ensures Group(ps) == OneItemDays(ps)
  {
    if ps != [] {
      var init := ps[..|ps| - 1];
      var last := ps[|ps| - 1];
      GroupDistinctDates(init);
      var before := Group(init);
      assert forall i :: 0 <= i < |before| ==> before[i].date == init[i].date < last.date;
      assert IndexOfDate(before, last.date).None?;
    }
  }

  /** Grouping a greedy placement gives one day per placed item, on allowed dates
      at or after the start, in strictly increasing order. */
  lemma GroupGreedy(cfg: Config, start: Date, placed: seq<Placed>)
    requires Greedy(cfg, start, placed)
    ensures Group(placed) == OneItemDays(placed)
    ensures |Group(placed)| == |placed|
    ensures |placed| > 0 ==> start <= Group(placed)[0].date
    ensures forall i :: 0 <= i < |placed| ==> Allowed(cfg, Group(placed)[i].date)
    ensures forall i :: 0 < i < |placed| ==> Group(placed)[i - 1].date < Group(placed)[i].date
  {
    GreedyIsIncreasing(cfg, start, placed);
    GroupDistinctDates(placed);
  }

  /** The days of the mock schedule: place the tasks, then group them by date.
      Every day holds exactly one item because the dates strictly increase. */
  function Plan(cfg: Config, tasks: seq<FlatTask>, start: Date): (days: seq<ScheduleDay>)
    requires tasks == [] || SomeWeekdayAllowed(cfg)
    ensures tasks == [] ==> days == []
    ensures tasks != [] ==> days == OneItemDays(Place(cfg, tasks, start))
    ensures |days| == |tasks|
    ensures |days| > 0 ==> start <= days[0].date
    ensures forall i :: 0 <= i < |days| ==> Allowed(cfg, days[i].date)
    ensures forall i :: 0 < i < |days| ==> days[i - 1].date < days[i].date
  {
    if tasks == [] then []
    else
      var placed := Place(cfg, tasks, start);
      GroupGreedy(cfg, start, placed);
      Group(placed)
  }

  // ---------------------------------------------------------------------
  // The route

  /** The day rules a request sets: weekends only when explicitly true,
      the given weekday exclusions, and the given excluded dates or none. */
  function ConfigOf(req: ScheduleRequest): (cfg: Config)
    ensures cfg.includeWeekends <==> req.includeWeekends == Some(true)
    ensures cfg.excludeWeekdays == req.excludeWeekdays.GetOr([])
    ensures forall d :: d in cfg.excludeDates <==> req.excludeDates.Some? && d in req.excludeDates.value
  {
    Config(
      req.includeWeekends.GetOr(false),
      NormalizeWeekdayIndices(req.excludeWeekdays),
      req.excludeDates.GetOr([]))
  }

  /** The schedule's timezone: the requested one when given and non-empty,
      else UTC. */
  function TimezoneOf(req: ScheduleRequest): string
  {
    match req.timezone
    case Some(t) => if t != "" then t else "UTC"
    case None => "UTC"
  }

  /** The route cannot loop forever: either there is no course, no task to
      place, or some weekday is allowed. */
  ghost predicate Terminates(course: Option<Course>, request: Option<ScheduleRequest>)
  {
    course.None? || Flatten(course.value.milestones) == []
    || SomeWeekdayAllowed(ConfigOf(request.GetOr(DefaultRequest)))
  }

  /** The mock branch of `generate_course_schedule`. `today` stands for
      `date.today()` and `now` for `datetime.now(timezone.utc)`. */
  function GenerateMockSchedule(courseId: int, course: Option<Course>, request: Option<ScheduleRequest>,
                                today: Date, now: int): (r: Result<Schedule>)
    requires Terminates(course, request)
    ensures course.None? <==> r == Err(NotFound)
    ensures course.Some? <==> r.Ok?
    ensures r.Ok? ==> r.value.courseId == courseId && r.value.generatedAt == now
    ensures r.Ok? ==> |r.value.days| == |Flatten(course.value.milestones)|
    ensures r.Ok? ==> r.value.timezone != ""
    ensures r.Ok? && request.Some? && request.value.timezone.Some? && request.value.timezone.value != "" ==>
              r.value.timezone == request.value.timezone.value
    ensures r.Ok? && (request.None? || request.value.timezone.None? || request.value.timezone.value == "") ==>
              r.value.timezone == "UTC"
  {
    if course.None? then Err(NotFound)
    else
      var req := request.GetOr(DefaultRequest);
      var tasks := Flatten(course.value.milestones);
      var days := Plan(ConfigOf(req), tasks, req.startDate.GetOr(today));
      Ok(Schedule(courseId, now, TimezoneOf(req), days))
  }

  /** What the mock schedule promises about items: one day per task in
      flattened order, holding exactly that task's item, which is a 30-minute
      quiz when the task's type is "quiz" and a 90-minute learning item otherwise. */
  lemma MockScheduleItems(courseId: int, course: Course, request: Option<ScheduleRequest>,
                          today: Date, now: int, i: nat)
    requires Terminates(Some(course), request)
    requires i < |Flatten(course.milestones)|
    ensures var days := GenerateMockSchedule(courseId, Some(course), request, today, now).value.days;
            var t := Flatten(course.milestones)[i];
            && |days[i].items| == 1
            && days[i].items[0].taskId == Some(t.taskId)
            && days[i].items[0].milestoneId == Some(t.milestoneId)
            && days[i].items[0].title == t.title
            && (days[i].items[0].kind == "quiz" <==> t.rawType == "quiz")
            && (days[i].items[0].kind != "quiz" ==> days[i].items[0].kind == "learning")
            && (days[i].items[0].durationMinutes == 30 <==> t.rawType == "quiz")
            && (days[i].items[0].durationMinutes != 30 ==> days[i].items[0].durationMinutes == 90)
  {
  }

  /** Days whose dates strictly increase from a first day at or after
      `start` all lie at or after `start`. */
  lemma {:induction false} AfterFirstDay(days: seq<ScheduleDay>, start: Date)
    requires |days| > 0 ==> start <= days[0].date
    requires forall i :: 0 < i < |days| ==> days[i - 1].date < days[i].date
    ensures forall i :: 0 <= i < |days| ==> start <= days[i].date
  {
    if |days| > 1 {
      AfterFirstDay(days[..|days| - 1], start);
      assert start <= days[|days| - 2].date;
    }
  }

  /** What the mock schedule promises about dates: strictly increasing, at
      or after the start, never an excluded date or excluded weekday, and never
      a weekend unless weekends are included. */
  lemma MockScheduleDates(courseId: int, course: Course, request: Option<ScheduleRequest>,
                          today: Date, now: int, i: nat)
    requires Terminates(Some(course), request)
    requires i < |Flatten(course.milestones)|
    ensures var req := request.GetOr(DefaultRequest);
            var days := GenerateMockSchedule(courseId, Some(course), request, today, now).value.days;
            && req.startDate.GetOr(today) <= days[i].date
            && (i > 0 ==> days[i - 1].date < days[i].date)
            && days[i].date !in req.excludeDates.GetOr([])
            && JsWeekday(days[i].date) !in NormalizeWeekdayIndices(req.excludeWeekdays)
            && (!req.includeWeekends.GetOr(false) ==> JsWeekday(days[i].date) != 0 && JsWeekday(days[i].date) != 6)
  {
    var req := request.GetOr(DefaultRequest);
    var days := GenerateMockSchedule(courseId, Some(course), request, today, now).value.days;
    AfterFirstDay(days, req.startDate.GetOr(today));
  }

  /** The route with `persist`: the generated schedule is also saved under the course id. */
  function GenerateAndPersist(table: ScheduleStore.Table, courseId: int, course: Option<Course>,
                              request: Option<ScheduleRequest>, persist: bool,
                              today: Date, now: int): (r: (Result<Schedule>, ScheduleStore.Table))
    requires Terminates(course, request)
    ensures r.0.Err? || !persist ==> r.1 == table
    ensures r.0.Ok? && persist ==>
              ScheduleStore.GetSchedule(r.1, courseId) == ScheduleStore.Found(r.0.value)
    ensures r.0.Ok? && persist ==> r.1 == ScheduleStore.SaveSchedule(table, courseId, r.0.value).0
    ensures forall c :: c != courseId ==> (c in r.1 <==> c in table) && (c in table ==> r.1[c] == table[c])
  {
    var result := GenerateMockSchedule(courseId, course, request, today, now);
    if result.Ok? && persist then
      ScheduleStore.GetAfterSave(table, courseId, result.value);
      (result, ScheduleStore.SaveSchedule(table, courseId, result.value).0)
    else (result, table)
  }
}

=== FILE: registry.dfy ===
/** The WebSocket connection manager and the per-connection session loop of
    `src/api/websockets.py`.

    The registry is a map from course id to the set of open connection
    handles. Handles are opaque values of a type `H`; a send on a handle is
    decided by an oracle `sendOk: H -> bool`, and every registry operation is
    treated as atomic. */
module Registry {

  import opened Json

  type CourseId = int

  type Registry<H> = map<CourseId, set<H>>

  /** The registry's invariant: no course key is kept with an empty set. */
  predicate Valid<H>(reg: Registry<H>)
  {
    forall c :: c in reg ==> reg[c] != {}
  }

  /** Keys other than `course` are present in `a` exactly when in `b`, with the same sets. */
  ghost predicate SameElsewhere<H>(a: Registry<H>, b: Registry<H>, course: CourseId)
  {
    && (forall c :: c != course ==> (c in a <==> c in b))
    && (forall c :: c != course && c in a && c in b ==> a[c] == b[c])
  }

  /** The outcome of an `async` call that may raise: the state it leaves
      behind, and whether an exception propagated to the caller. */
  datatype Attempt<S> = Done(state: S) | Raised(state: S)

  // ---------------------------------------------------------------------
  // ConnectionManager.connect

  /** `connect`: accept the handshake, then add the handle to the course's
      set, creating the set when the course is absent. When `accept` raises,
      the exception is logged and re-raised and nothing was added. */
  function Connect<H>(reg: Registry<H>, h: H, course: CourseId, acceptOk: bool): (r: Attempt<Registry<H>>)
    ensures r.Done? <==> acceptOk
    ensures !acceptOk ==> r.state == reg
    ensures acceptOk ==> course in r.state && h in r.state[course]
    ensures acceptOk ==> r.state[course] == (if course in reg then reg[course] else {}) + {h}
    ensures SameElsewhere(reg, r.state, course)
    ensures Valid(reg) ==> Valid(r.state)
  {
    if !acceptOk then Raised(reg)
    else
      var members := if course in reg then reg[course] else {};
      Done(reg[course := members + {h}])
  }

  /** Connecting a handle that is already registered changes nothing, so
      connecting twice is the same as connecting once. */
  lemma ConnectIdempotent<H>(reg: Registry<H>, h: H, course: CourseId)
    ensures Connect(Connect(reg, h, course, true).state, h, course, true) == Connect(reg, h, course, true)
    ensures course in reg && h in reg[course] ==> Connect(reg, h, course, true).state == reg
  {
    var once := Connect(reg, h, course, true).state;
    assert once[course] + {h} == once[course];
    assert once[course := once[course]] == once;
    if course in reg && h in reg[course] {
      assert reg[course] + {h} == reg[course];
      assert reg[course := reg[course]] == reg;
    }
  }

  // ---------------------------------------------------------------------
  // ConnectionManager.disconnect

  /** `disconnect`: discard the handle from the course's set and delete the
      course key once its set is empty. An absent course is left alone. */
  function Disconnect<H>(reg: Registry<H>, h: H, course: CourseId): (r: Registry<H>)
    ensures course in r ==> h !in r[course]
    ensures course in r <==> course in reg && reg[course] - {h} != {}
    ensures course in r ==> r[course] == reg[course] - {h}
    ensures SameElsewhere(reg, r, course)
    ensures Valid(reg) ==> Valid(r)
  {
    if course in reg then
      var rest := reg[course] - {h};
      if rest == {} then reg - {course} else reg[course := rest]
    else reg
  }

  /** Disconnecting from an absent course, or a handle that is not in the
      course's set, leaves a valid registry unchanged; in particular a second
      disconnect of the same handle is a no-op. */
  lemma DisconnectAbsentNoOp<H>(reg: Registry<H>, h: H, course: CourseId)
    requires Valid(reg)
    requires course !in reg || h !in reg[course]
    ensures Disconnect(reg, h, course) == reg
  {
    if course in reg {
      assert reg[course] - {h} == reg[course];
    }
  }

  lemma DisconnectTwice<H>(reg: Registry<H>, h: H, course: CourseId)
    requires Valid(reg)
    ensures Disconnect(Disconnect(reg, h, course), h, course) == Disconnect(reg, h, course)
  {
    DisconnectAbsentNoOp(Disconnect(reg, h, course), h, course);
  }

  // ---------------------------------------------------------------------
  // ConnectionManager.send_item_update

  /** Reference definition of the registry after a broadcast: the failed
      handles are removed from the course's set, and the key goes when the
      set empties. */
  function Prune<H>(reg: Registry<H>, course: CourseId, gone: set<H>): Registry<H>
  {
    if course in reg then
      var rest := reg[course] - gone;
      if rest == {} then reg - {course} else reg[course := rest]
    else reg
  }

  /** Removing one more handle through `disconnect` extends a pruning by that handle. */
  lemma DisconnectExtendsPrune<H>(reg: Registry<H>, course: CourseId, gone: set<H>, h: H)
    ensures Disconnect(Prune(reg, course, gone), h, course) == Prune(reg, course, gone + {h})
  {
    if course in reg {
      assert reg[course] - (gone + {h}) == (reg[course] - gone) - {h};
    }
  }

  /** `send_item_update`: send the payload to every handle registered for the
      course, collecting the handles whose send raised; a failure does not
      stop the fan-out. Afterwards each failed handle is disconnected.
      `attempted` is the set of handles a send was tried on, `failed` those
      whose send raised. */
  method SendItemUpdate<H>(reg: Registry<H>, course: CourseId, sendOk: H -> bool)
    returns (after: Registry<H>, attempted: set<H>, failed: set<H>)
    requires Valid(reg)
    ensures course !in reg ==> after == reg && attempted == {} && failed == {}
    ensures course in reg ==> attempted == reg[course]
    ensures failed == set h | h in attempted && !sendOk(h)
    ensures after == Prune(reg, course, failed)
    ensures course in after <==> course in reg && reg[course] - failed != {}
    ensures course in after ==> after[course] == reg[course] - failed
    ensures forall h :: h in attempted && sendOk(h) ==> course in after && h in after[course]
    ensures SameElsewhere(reg, after, course)
    ensures Valid(after)
  {
    attempted, failed := {}, {};
    if course !in reg {
      return reg, attempted, failed;
    }
    var pending := reg[course];
    while pending != {}
      invariant pending + attempted == reg[course]
      invariant pending !! attempted
      invariant failed == set h | h in attempted && !sendOk(h)
      decreases pending
    {
      var h :| h in pending;
      if !sendOk(h) {
        failed := failed + {h};
      }
      attempted := attempted + {h};
      pending := pending - {h};
    }
    after := reg;
    var removed: set<H> := {};
    assert Prune(reg, course, removed) == reg by {
      assert reg[course] - {} == reg[course];
      assert reg[course := reg[course]] == reg;
    }
    var toRemove := failed;
    while toRemove != {}
      invariant removed + toRemove == failed
      invariant after == Prune(reg, course, removed)
      decreases toRemove
    {
      var h :| h in toRemove;
      DisconnectExtendsPrune(reg, course, removed, h);
      after := Disconnect(after, h, course);
      removed := removed + {h};
      toRemove := toRemove - {h};
    }
  }

  // ---------------------------------------------------------------------
  // websocket_course_generation: the receive loop

  /** One inbound WebSocket frame as the loop's receive calls see it: a text
      frame holding JSON, a text frame that is not JSON, or the end of the
      connection (a client disconnect or a transport error, after which every
      further receive raises). */
  datatype Frame = JsonText(value: Json.Value) | PlainText(text: string) | Closed

  /** A ping: a JSON object whose "type" field is the string "ping". */
  predicate IsPing(v: Json.Value)
  {
    v.JObj? && Get(v.fields, "type") == JStr("ping")
  }

  const Pong: Json.Value := JObj(map["type" := JStr("pong")])

  /** What the loop did with the frames it read: the messages it sent, and
      whether it left the loop (`ended`) rather than still waiting. */
  datatype SessionOutcome = SessionOutcome(replies: seq<Json.Value>, ended: bool)

  function Prepend(m: Json.Value, o: SessionOutcome): SessionOutcome
  {
    o.(replies := [m] + o.replies)
  }

  /** The loop reading frames from index `i`. `receive_json` takes one frame.
      A ping gets a pong; if sending the pong raises (`pongOk(i)` false) the
      inner handler falls back to `receive_text`, which takes the NEXT frame.
      Any other JSON is ignored. A non-JSON frame makes `receive_json` raise
      after it has taken the frame, so the fallback `receive_text` takes the
      next frame too. A receive on a closed connection raises past the inner
      handler and ends the loop with `break`. */
  function Listen(frames: seq<Frame>, pongOk: nat -> bool, i: nat): (r: SessionOutcome)
    requires i <= |frames|
    ensures forall k :: 0 <= k < |r.replies| ==> r.replies[k] == Pong
    ensures |r.replies| <= |frames| - i
    ensures r.ended <==> Closed in frames[i..]
    decreases |frames| - i
  {
    if i == |frames| then SessionOutcome([], false)
    else
      assert frames[i..] == [frames[i]] + frames[i + 1..];
      match frames[i]
      case Closed => SessionOutcome([], true)
      case JsonText(v) =>
        if !IsPing(v) then Listen(frames, pongOk, i + 1)
        else if pongOk(i) then Prepend(Pong, Listen(frames, pongOk, i + 1))
        else FallbackText(frames, pongOk, i + 1)
      case PlainText(_) => FallbackText(frames, pongOk, i + 1)
  }

  /** The inner handler's fallback text receive, which takes frame `j`, then
      back to the loop. */
  function FallbackText(frames: seq<Frame>, pongOk: nat -> bool, j: nat): (r: SessionOutcome)
    requires j <= |frames|
    ensures forall k :: 0 <= k < |r.replies| ==> r.replies[k] == Pong
    ensures |r.replies| <= |frames| - j
    ensures r.ended <==> Closed in frames[j..]
    decreases |frames| - j, 0
  {
    if j == |frames| then SessionOutcome([], false)
    else if frames[j].Closed? then SessionOutcome([], true)
    else
      assert frames[j..] == [frames[j]] + frames[j + 1..];
      Listen(frames, pongOk, j + 1)
  }

  /** Number of pings in a sequence of frames. */
  function CountPings(frames: seq<Frame>): nat
  {
    if frames == [] then 0
    else (if frames[0].JsonText? && IsPing(frames[0].value) then 1 else 0) + CountPings(frames[1..])
  }

  /** A client that only sends JSON, to a transport that never fails a send:
      every ping before the first close gets exactly one pong, everything
      else gets nothing, and the loop ends exactly when a close arrives. */
  lemma {:induction false} JsonClientGetsOnePongPerPing(frames: seq<Frame>, pongOk: nat -> bool, i: nat)
    requires i <= |frames|
    requires forall k :: i <= k < |frames| ==> !frames[k].PlainText?
    requires forall k :: i <= k < |frames| ==> pongOk(k)
    ensures Listen(frames, pongOk, i).ended <==> Closed in frames[i..]
    ensures !(Closed in frames[i..]) ==> |Listen(frames, pongOk, i).replies| == CountPings(frames[i..])
    decreases |frames| - i
  {
    if i < |frames| {
      assert frames[i..][1..] == frames[i + 1..];
      if !frames[i].Closed? {
        JsonClientGetsOnePongPerPing(frames, pongOk, i + 1);
      }
    }
  }

  /** A ping whose pong is sent gets exactly that pong, and the loop goes on
      with the next frame; if sending the pong raises, the fallback receive
      takes the next frame, as after plain text. */
  lemma PingThenPong(frames: seq<Frame>, pongOk: nat -> bool, i: nat)
    requires i < |frames| && frames[i].JsonText? && IsPing(frames[i].value)
    ensures pongOk(i) ==> Listen(frames, pongOk, i) == Prepend(Pong, Listen(frames, pongOk, i + 1))
    ensures !pongOk(i) ==> Listen(frames, pongOk, i) == FallbackText(frames, pongOk, i + 1)
  {
  }

  /** JSON that is not a ping gets no reply and costs one frame. */
  lemma OtherJsonIgnored(frames: seq<Frame>, pongOk: nat -> bool, i: nat)
    requires i < |frames| && frames[i].JsonText? && !IsPing(frames[i].value)
    ensures Listen(frames, pongOk, i) == Listen(frames, pongOk, i + 1)
  {
  }

  /** A non-JSON frame also swallows the frame after it: the loop goes on
      two frames later with nothing sent, unless that next frame is the
      close, which ends the session. */
  lemma PlainTextSwallowsNextFrame(frames: seq<Frame>, pongOk: nat -> bool, i: nat)
    requires i < |frames| && frames[i].PlainText?
    ensures i + 1 < |frames| && !frames[i + 1].Closed? ==> Listen(frames, pongOk, i) == Listen(frames, pongOk, i + 2)
    ensures i + 1 < |frames| && frames[i + 1].Closed? ==> Listen(frames, pongOk, i) == SessionOutcome([], true)
    ensures i + 1 == |frames| ==> Listen(frames, pongOk, i) == SessionOutcome([], false)
  {
  }

  // ---------------------------------------------------------------------
  // websocket_course_generation: the whole endpoint

  datatype EndpointOutcome<H> = EndpointOutcome(registry: Registry<H>, session: SessionOutcome)

  /** The endpoint as written. When `connect` raises, the outer handlers
      call `disconnect`. Otherwise the loop runs; its `break` exits return
      normally, so the handle stays registered after the session ends. */
  function Endpoint<H>(reg: Registry<H>, h: H, course: CourseId, acceptOk: bool,
                       frames: seq<Frame>, pongOk: nat -> bool): (r: EndpointOutcome<H>)
    ensures !acceptOk ==> r.registry == Disconnect(reg, h, course) && r.session.replies == []
    ensures acceptOk ==> course in r.registry && h in r.registry[course]
    ensures acceptOk ==> r.registry == Connect(reg, h, course, true).state
    ensures SameElsewhere(reg, r.registry, course)
    ensures acceptOk ==> r.session == Listen(frames, pongOk, 0)
    ensures Valid(reg) ==> Valid(r.registry)
  {
    match Connect(reg, h, course, acceptOk)
    case Raised(_) => EndpointOutcome(Disconnect(reg, h, course), SessionOutcome([], true))
    case Done(registered) => EndpointOutcome(registered, Listen(frames, pongOk, 0))
  }

  /** A failed handshake leaves a valid registry as it was. */
  lemma FailedHandshakeRegistersNothing<H>(reg: Registry<H>, h: H, course: CourseId,
                                           frames: seq<Frame>, pongOk: nat -> bool)
    requires Valid(reg)
    requires course !in reg || h !in reg[course]
    ensures Endpoint(reg, h, course, false, frames, pongOk).registry == reg
  {
    DisconnectAbsentNoOp(reg, h, course);
  }

  /** As written, a session that ended with a close is still registered, and
      a broadcast still tries to send to it. */
  lemma ClosedSessionStaysRegistered<H>(reg: Registry<H>, h: H, course: CourseId,
                                        frames: seq<Frame>, pongOk: nat -> bool)
    requires Endpoint(reg, h, course, true, frames, pongOk).session.ended
    ensures h in Endpoint(reg, h, course, true, frames, pongOk).registry[course]
  {
  }

  /** The session end the loop was evidently meant to have: every exit path
      unregisters the handle, as the outer handlers do. */
  function EndpointIntended<H>(reg: Registry<H>, h: H, course: CourseId, acceptOk: bool,
                               frames: seq<Frame>, pongOk: nat -> bool): (r: EndpointOutcome<H>)
    ensures !acceptOk ==> r.registry == Disconnect(reg, h, course)
    ensures acceptOk && !r.session.ended ==> course in r.registry && h in r.registry[course]
    ensures Valid(reg) ==> Valid(r.registry)
  {
    match Connect(reg, h, course, acceptOk)
    case Raised(_) => EndpointOutcome(Disconnect(reg, h, course), SessionOutcome([], true))
    case Done(registered) =>
      var session := Listen(frames, pongOk, 0);
      EndpointOutcome(if session.ended then Disconnect(registered, h, course) else registered, session)
  }

  /** With the intended exit, a session that ended leaves no trace of its
      handle under its course; the sessions of other courses are untouched. */
  lemma IntendedEndUnregisters<H>(reg: Registry<H>, h: H, course: CourseId,
                                  frames: seq<Frame>, pongOk: nat -> bool)
    requires EndpointIntended(reg, h, course, true, frames, pongOk).session.ended
    ensures var after := EndpointIntended(reg, h, course, true, frames, pongOk).registry;
            (course in after ==> h !in after[course]) && SameElsewhere(reg, after, course)
  {
  }

  /** The self-healing path that compensates for the missing unregister: the
      next broadcast whose send to the closed handle fails removes it, while
      the handles that received the payload stay. */
  method BroadcastAfterClose<H>(reg: Registry<H>, h: H, course: CourseId, frames: seq<Frame>,
                                pongOk: nat -> bool, sendOk: H -> bool)
    returns (after: Registry<H>)
    requires Valid(reg)
    requires Endpoint(reg, h, course, true, frames, pongOk).session.ended
    requires !sendOk(h)
    ensures course in after ==> h !in after[course]
    ensures forall g :: g in Endpoint(reg, h, course, true, frames, pongOk).registry[course] && sendOk(g) ==>
              course in after && g in after[course]
    ensures Valid(after)
  {
    var registered := Endpoint(reg, h, course, true, frames, pongOk).registry;
    var attempted, failed;
    after, attempted, failed := SendItemUpdate(registered, course, sendOk);
  }
}

=== FILE: safety.dfy ===
/** The safety filter of `src/api/utils/safety_filter.py`: a substring
    pre-check over two fixed term lists, the verdict logic around the LLM
    call, and the request texts the two entry points build. The LLM call is
    an abstract reply. */
module Safety {

  import opened Common
  import opened Json
  import opened Text

  const SafeTerms: seq<string> := [
    "mathematics", "math", "algebra", "geometry", "calculus", "statistics",
    "science", "physics", "chemistry", "biology", "astronomy", "geology",
    "programming", "python", "javascript", "coding", "computer science",
    "history", "geography", "literature", "english", "writing",
    "language", "spanish", "french", "german", "chinese",
    "art", "music", "painting", "drawing", "sculpture",
    "economics", "business", "accounting", "finance",
    "health", "nutrition", "exercise", "wellness",
    "engineering", "architecture", "design",
    "photosynthesis", "ecosystem", "environment",
    "tutorial", "lesson", "course", "education", "learning",
    "beginner", "intermediate", "advanced", "student", "teach"
  ]

  const RedFlags: seq<string> := [
    "weapon", "bomb", "explosive", "kill", "harm", "suicide",
    "hate", "discrimination", "racist", "sexual", "nude", "porn"
  ]

  /** Whether some term of the list occurs in the text as a substring. */
  function AnyOccurs(terms: seq<string>, text: string): (b: bool)
    ensures b <==> exists k :: 0 <= k < |terms| && Occurs(terms[k], text)
  {
    if terms == [] then false
    else if Contains(text, terms[0]) then true
    else
      var rest := AnyOccurs(terms[1..], text);
      assert forall k :: 1 <= k < |terms| ==> terms[k] == terms[1..][k - 1];
      rest
  }

  /** `_is_obviously_safe_educational`: some safe term and no red flag
      occurs in the lower-cased content, as substrings. */
  function IsObviouslySafeEducational(content: string): (b: bool)
    ensures b <==> (exists k :: 0 <= k < |SafeTerms| && Occurs(SafeTerms[k], Lower(content)))
                   && !(exists k :: 0 <= k < |RedFlags| && Occurs(RedFlags[k], Lower(content)))
  {
    var text := Lower(content);
    AnyOccurs(SafeTerms, text) && !AnyOccurs(RedFlags, text)
  }

  /** A red flag anywhere in the content, in any letter case, sends it to the
      full check, whatever safe terms it also holds. */
  lemma RedFlagForcesFullCheck(content: string, k: nat, at: nat)
    requires k < |RedFlags|
    requires OccursAt(RedFlags[k], Lower(content), at)
    ensures !IsObviouslySafeEducational(content)
  {
  }

  /** Content without any safe term is never obviously safe. */
  lemma NoSafeTermNoBypass(content: string)
    requires forall k :: 0 <= k < |SafeTerms| ==> !Occurs(SafeTerms[k], Lower(content))
    ensures !IsObviouslySafeEducational(content)
  {
  }

  /** Matching ignores case and is on substrings, not words: "ART" inside
      "SMART" counts as the safe term "art". */
  lemma SubstringNotWord()
    ensures Occurs("art", Lower("SMART"))
  {
    assert Lower("SMART") == "smart";
    assert OccursAt("art", "smart", 2);
  }

  // ---------------------------------------------------------------------
  // evaluate_content

  datatype SafetyResponse = SafetyResponse(isSafe: bool, reason: string)

  /** What the LLM call produced: it raised (network error, empty reply,
      ...), it replied with text that is not JSON, or it replied with JSON. */
  datatype LlmReply = CallRaised | NotJson | JsonReply(value: Json.Value)

  const BypassReason := "Safe for educational content generation."
  const MissingReason := "Unable to parse safety evaluation"
  const DecodeFailedReason := "Safety evaluation failed - content blocked as precaution"
  const CheckFailedReason := "Safety check failed - content allowed for educational platform (monitoring recommended)"

  /** The verdict read from a parsed reply: `is_safe` defaults to false and
      `reason` to a fixed text. None when the reply is not a dict (reading a
      field raises) or a field has the wrong type (validation raises). */
  function ParseVerdict(v: Json.Value): (r: Option<SafetyResponse>)
    ensures r.Some? ==> v.JObj?
    ensures r.Some? && "is_safe" !in v.fields ==> !r.value.isSafe
    ensures r.Some? && "reason" !in v.fields ==> r.value.reason == MissingReason
    ensures r.Some? <==> v.JObj? && ("is_safe" !in v.fields || v.fields["is_safe"].JBool?)
                                 && ("reason" !in v.fields || v.fields["reason"].JStr?)
    ensures r.Some? && "is_safe" in v.fields ==> v.fields["is_safe"] == JBool(r.value.isSafe)
    ensures r.Some? && "reason" in v.fields ==> v.fields["reason"] == JStr(r.value.reason)
  {
    if !v.JObj? then None
    else
      var m := v.fields;
      var safe := if "is_safe" in m then m["is_safe"] else JBool(false);
      var reason := if "reason" in m then m["reason"] else JStr(MissingReason);
      if safe.JBool? && reason.JStr? then Some(SafetyResponse(safe.b, reason.s)) else None
  }

  /** `evaluate_content`. The pre-check bypasses the LLM. A reply that is not
      JSON is blocked; every other failure inside the outer `try` (the call
      raising, a reply that is not a dict, a field of the wrong type) lets the
      content through. */
  function EvaluateContent(request: string, llm: LlmReply): (r: SafetyResponse)
    ensures IsObviouslySafeEducational(request) ==> r == SafetyResponse(true, BypassReason)
    ensures !IsObviouslySafeEducational(request) && llm.NotJson? ==> r == SafetyResponse(false, DecodeFailedReason)
    ensures !IsObviouslySafeEducational(request) && llm.CallRaised? ==> r == SafetyResponse(true, CheckFailedReason)
    ensures !IsObviouslySafeEducational(request) && llm.JsonReply? ==>
              r == if ParseVerdict(llm.value).Some? then ParseVerdict(llm.value).value else SafetyResponse(true, CheckFailedReason)
  {
    if IsObviouslySafeEducational(request) then SafetyResponse(true, BypassReason)
    else
      match llm
      case CallRaised => SafetyResponse(true, CheckFailedReason)
      case NotJson => SafetyResponse(false, DecodeFailedReason)
      case JsonReply(v) =>
        match ParseVerdict(v)
        case Some(verdict) => verdict
        case None => SafetyResponse(true, CheckFailedReason)
  }

  /** When the pre-check passes, the LLM's answer does not matter. */
  lemma BypassIgnoresLlm(request: string, a: LlmReply, b: LlmReply)
    requires IsObviouslySafeEducational(request)
    ensures EvaluateContent(request, a) == EvaluateContent(request, b)
  {
  }

  /** An LLM reply that blocks: text that is not JSON, or a dict whose
      `is_safe` is false or missing and whose `reason`, if present, is a string. */
  predicate RejectingReply(llm: LlmReply)
  {
    llm.NotJson?
    || (llm.JsonReply? && llm.value.JObj?
        && ("is_safe" in llm.value.fields ==> llm.value.fields["is_safe"] == JBool(false))
        && ("reason" in llm.value.fields ==> llm.value.fields["reason"].JStr?))
  }

  /** Content is blocked exactly when the pre-check fails and the LLM's
      reply rejects it. */
  lemma BlockedExactly(request: string, llm: LlmReply)
    ensures !EvaluateContent(request, llm).isSafe <==> !IsObviouslySafeEducational(request) && RejectingReply(llm)
  {
  }

  // ---------------------------------------------------------------------
  // evaluate_course_request and evaluate_chat_request

  /** An optional string argument counts as given when it is present and non-empty. */
  predicate Given(s: Option<string>)
  {
    s.Some? && s.value != ""
  }

  /** The text `evaluate_course_request` hands to `evaluate_content`. */
  function CourseRequestText(description: string, audience: string, instructions: Option<string>): (r: string)
    ensures var head := "Course Description: " + description + "\nIntended Audience: " + audience;
            && |head| <= |r| && r[..|head|] == head
            && (Given(instructions) ==> r[|head|..] == "\nAdditional Instructions: " + instructions.value)
            && (!Given(instructions) ==> r == head)
  {
    var head := "Course Description: " + description + "\nIntended Audience: " + audience;
    if Given(instructions) then head + "\nAdditional Instructions: " + instructions.value else head
  }

  /** The text `evaluate_chat_request` hands to `evaluate_content`. */
  function ChatRequestText(response: string, context: Option<string>): (r: string)
    ensures var head := "User Response: " + response;
            && |head| <= |r| && r[..|head|] == head
            && (Given(context) ==> r[|head|..] == "\nTask Context: " + context.value)
            && (!Given(context) ==> r == head)
  {
    var head := "User Response: " + response;
    if Given(context) then head + "\nTask Context: " + context.value else head
  }

  /** An empty string for the optional argument is the same as leaving it out. */
  lemma EmptyOptionalIsOmitted(description: string, audience: string, response: string)
    ensures CourseRequestText(description, audience, Some("")) == CourseRequestText(description, audience, None)
    ensures ChatRequestText(response, Some("")) == ChatRequestText(response, None)
  {
  }

  /** `evaluate_course_request`: the course text gets the bypass verdict
      when it passes the pre-check, and otherwise is blocked exactly when the
      LLM's reply rejects it; a failed call lets it through. */
  function EvaluateCourseRequest(description: string, audience: string, instructions: Option<string>,
                                 llm: LlmReply): (r: SafetyResponse)
    ensures IsObviouslySafeEducational(CourseRequestText(description, audience, instructions)) ==>
              r == SafetyResponse(true, BypassReason)
    ensures !r.isSafe <==>
              !IsObviouslySafeEducational(CourseRequestText(description, audience, instructions)) && RejectingReply(llm)
    ensures llm.CallRaised? ==> r.isSafe
    ensures r == EvaluateContent(CourseRequestText(description, audience, instructions), llm)
  {
    BlockedExactly(CourseRequestText(description, audience, instructions), llm);
    EvaluateContent(CourseRequestText(description, audience, instructions), llm)
  }

  /** `evaluate_chat_request`: the same verdicts over the chat text. */
  function EvaluateChatRequest(response: string, context: Option<string>, llm: LlmReply): (r: SafetyResponse)
    ensures IsObviouslySafeEducational(ChatRequestText(response, context)) ==> r == SafetyResponse(true, BypassReason)
    ensures !r.isSafe <==> !IsObviouslySafeEducational(ChatRequestText(response, context)) && RejectingReply(llm)
    ensures llm.CallRaised? ==> r.isSafe
    ensures r == EvaluateContent(ChatRequestText(response, context), llm)
  {
    BlockedExactly(ChatRequestText(response, context), llm);
    EvaluateContent(ChatRequestText(response, context), llm)
  }

  /** Every course request holds "Course" in its fixed prefix, and "course"
      is a safe term. */
  lemma CourseRequestsMentionCourse(description: string, audience: string, instructions: Option<string>)
    ensures Occurs("course", Lower(CourseRequestText(description, audience, instructions)))
  {
    var text := Lower(CourseRequestText(description, audience, instructions));
    assert text[0..6] == Lower("Course") by {
      var r := CourseRequestText(description, audience, instructions);
      assert r[..6] == "Course";
    }
    assert Lower("Course") == "course";
    assert OccursAt("course", text, 0);
  }

  /** So a course request never reaches the LLM unless it holds a red flag:
      without one it is passed as safe with the bypass reason. */
  lemma CourseRequestBypassesUnlessRedFlag(description: string, audience: string, instructions: Option<string>,
                                           llm: LlmReply)
    requires forall k :: 0 <= k < |RedFlags| ==>
               !Occurs(RedFlags[k], Lower(CourseRequestText(description, audience, instructions)))
    ensures EvaluateCourseRequest(description, audience, instructions, llm) == SafetyResponse(true, BypassReason)
  {
    CourseRequestsMentionCourse(description, audience, instructions);
    assert SafeTerms[48] == "course";
  }
}

=== FILE: schedule_store.dfy ===
/** The schedule table of `src/api/db/schedule.py`: one row per course id,
    written with INSERT OR REPLACE, read back and deleted by course id. The
    `days` column holds the JSON the save encodes; the text layer between
    `json.dumps` and `json.loads` is taken to be lossless, so a row stores
    the JSON value itself. */
module ScheduleStore {

  import opened Common
  import opened Json
  import opened Text
  import opened ScheduleTypes

  /** `days` is None when the column is NULL or the empty string. */
  datatype Row = Row(generatedAt: int, timezone: string, days: Option<Json.Value>)

  type Table = map<int, Row>

  // ---------------------------------------------------------------------
  // Encoding (the list comprehension in save_schedule)

  /** The text `date.isoformat()` would give: here the decimal ordinal, an
      equally injective rendering. */
  function DateText(d: Date): string
  {
    Decimal(d)
  }

  function OptionalNum(x: Option<int>): Json.Value
  {
    match x
    case Some(n) => JNum(n)
    case None => JNull
  }

  /** An item as a dict with exactly the model's five fields. */
  function EncodeItem(i: ScheduleItem): (r: Json.Value)
    ensures r.JObj? && r.fields.Keys == {"type", "task_id", "milestone_id", "title", "duration_minutes"}
  {
    JObj(map[
      "type" := JStr(i.kind),
      "task_id" := OptionalNum(i.taskId),
      "milestone_id" := OptionalNum(i.milestoneId),
      "title" := JStr(i.title),
      "duration_minutes" := JNum(i.durationMinutes)])
  }

  function EncodeItems(items: seq<ScheduleItem>): (r: seq<Json.Value>)
    ensures |r| == |items|
    ensures forall k :: 0 <= k < |items| ==> r[k] == EncodeItem(items[k])
  {
    if items == [] then [] else [EncodeItem(items[0])] + EncodeItems(items[1..])
  }

  /** A day as a dict of its date text, its encoded items and its summary. */
  function EncodeDay(d: ScheduleDay): (r: Json.Value)
    ensures r.JObj? && r.fields.Keys == {"date", "items", "summary"}
    ensures r.fields["date"] == JStr(DateText(d.date))
    ensures r.fields["items"].JArr? && |r.fields["items"].items| == |d.items|
  {
    JObj(map[
      "date" := JStr(DateText(d.date)),
      "items" := JArr(EncodeItems(d.items)),
      "summary" := match d.summary case Some(s) => JStr(s) case None => JNull])
  }

  /** The `days` column written by `save_schedule`: one object per day, in order. */
  function EncodeDays(days: seq<ScheduleDay>): (r: seq<Json.Value>)
    ensures |r| == |days|
    ensures forall k :: 0 <= k < |days| ==> r[k] == EncodeDay(days[k])
  {
    if days == [] then [] else [EncodeDay(days[0])] + EncodeDays(days[1..])
  }

  // ---------------------------------------------------------------------
  // Decoding (the loop in get_schedule); None stands for a raised exception

  /** A JSON value for an optional integer field: missing or null is None. */
  function DecodeOptionalNum(v: Json.Value): Option<Option<int>>
  {
    match v
    case JNull => Some(None)
    case JNum(n) => Some(Some(n))
    case _ => None
  }

  /** Rebuilding an item from a stored dict: the type, title and duration
      must be present with their types, the ids may be missing or null, and
      extra keys are ignored. */
  function DecodeItem(v: Json.Value): (r: Option<ScheduleItem>)
    ensures r.Some? ==> v.JObj? && Get(v.fields, "type") == JStr(r.value.kind)
    ensures r.Some? ==> Get(v.fields, "title") == JStr(r.value.title)
    ensures r.Some? ==> Get(v.fields, "duration_minutes") == JNum(r.value.durationMinutes)
    ensures r.Some? ==> Get(v.fields, "task_id") == OptionalNum(r.value.taskId)
    ensures r.Some? ==> Get(v.fields, "milestone_id") == OptionalNum(r.value.milestoneId)
  {
    if !v.JObj? then None
    else
      var m := v.fields;
      if !("type" in m && m["type"].JStr? && "title" in m && m["title"].JStr?
           && "duration_minutes" in m && m["duration_minutes"].JNum?) then None
      else
        match (DecodeOptionalNum(Get(m, "task_id")), DecodeOptionalNum(Get(m, "milestone_id")))
        case (Some(task), Some(milestone)) =>
          Some(ScheduleItem(m["type"].s, task, milestone, m["title"].s, m["duration_minutes"].n))
        case _ => None
  }

  function DecodeItems(vs: seq<Json.Value>): (r: Option<seq<ScheduleItem>>)
    ensures r.Some? ==> |r.value| == |vs| && forall k :: 0 <= k < |vs| ==> DecodeItem(vs[k]) == Some(r.value[k])
    ensures r.None? ==> exists k :: 0 <= k < |vs| && DecodeItem(vs[k]).None?
  {
    if vs == [] then Some([])
    else
      match (DecodeItem(vs[0]), DecodeItems(vs[1..]))
      case (Some(i), Some(rest)) => Some([i] + rest)
      case _ => None
  }

  /** The elements a Python `for` loop over a stored value hands to a loop
      body that needs a dict: a list gives its elements, and an empty dict
      or empty string gives none. Iterating anything else raises, either at
      once or in the body, which receives a key or a character. */
  function Iterated(v: Json.Value): (r: Option<seq<Json.Value>>)
    ensures v.JArr? ==> r == Some(v.items)
    ensures v == JObj(map[]) || v == JStr("") ==> r == Some([])
    ensures r.Some? ==> v.JArr? || v == JObj(map[]) || v == JStr("")
  {
    match v
    case JArr(vs) => Some(vs)
    case JObj(m) => if m == map[] then Some([]) else None
    case JStr(s) => if s == "" then Some([]) else None
    case _ => None
  }

  /** One entry of the stored list: its date must be present and parse,
      its items (none when missing) are iterated and each must rebuild an
      item, and its summary must be a string or missing or null. */
  function DecodeDay(v: Json.Value): (r: Option<ScheduleDay>)
    ensures r.Some? ==> v.JObj? && "date" in v.fields && v.fields["date"].JStr?
    ensures r.Some? ==> ParseDecimal(v.fields["date"].s) == Some(r.value.date)
    ensures r.Some? && "items" !in v.fields ==> r.value.items == []
    ensures r.Some? && "items" in v.fields && v.fields["items"] in {JObj(map[]), JStr("")} ==> r.value.items == []
    ensures r.Some? && "items" in v.fields ==>
              Iterated(v.fields["items"]).Some? && DecodeItems(Iterated(v.fields["items"]).value) == Some(r.value.items)
    ensures r.Some? ==> (r.value.summary.None? <==> Get(v.fields, "summary") == JNull)
  {
    if !v.JObj? || "date" !in v.fields || !v.fields["date"].JStr? then None
    else
      var m := v.fields;
      var items := if "items" in m then Iterated(m["items"]) else Some([]);
      var summary := Get(m, "summary");
      match ParseDecimal(m["date"].s)
      case None => None
      case Some(date) =>
        if items.None? || !(summary.JNull? || summary.JStr?) then None
        else
          match DecodeItems(items.value)
          case None => None
          case Some(its) => Some(ScheduleDay(date, its, if summary.JStr? then Some(summary.s) else None))
  }

  function DecodeDayList(vs: seq<Json.Value>): (r: Option<seq<ScheduleDay>>)
    ensures r.Some? ==> |r.value| == |vs| && forall k :: 0 <= k < |vs| ==> DecodeDay(vs[k]) == Some(r.value[k])
    ensures r.None? ==> exists k :: 0 <= k < |vs| && DecodeDay(vs[k]).None?
  {
    if vs == [] then Some([])
    else
      match (DecodeDay(vs[0]), DecodeDayList(vs[1..]))
      case (Some(d), Some(rest)) => Some([d] + rest)
      case _ => None
  }

  /** The stored days, parsed when the column is non-empty and then walked
      day by day. Iterating an empty dict or empty string yields nothing;
      any other non-list makes the loop raise. */
  function DecodeDays(payload: Option<Json.Value>): (r: Option<seq<ScheduleDay>>)
    ensures payload.None? ==> r == Some([])
    ensures payload.Some? && payload.value.JArr? ==> r == DecodeDayList(payload.value.items)
  {
    match payload
    case None => Some([])
    case Some(v) =>
      match Iterated(v)
      case None => None
      case Some(vs) => DecodeDayList(vs)
  }

  lemma {:induction false} ItemsRoundTrip(items: seq<ScheduleItem>)
    ensures DecodeItems(EncodeItems(items)) == Some(items)
  {
    if items != [] {
      ItemsRoundTrip(items[1..]);
      var i := items[0];
      assert DecodeOptionalNum(OptionalNum(i.taskId)) == Some(i.taskId) by {
        match i.taskId { case Some(_) => case None => }
      }
      assert DecodeOptionalNum(OptionalNum(i.milestoneId)) == Some(i.milestoneId) by {
        match i.milestoneId { case Some(_) => case None => }
      }
      assert DecodeItem(EncodeItem(i)) == Some(i);
      var enc := EncodeItems(items);
      assert enc[0] == EncodeItem(i) && enc[1..] == EncodeItems(items[1..]);
      assert items == [i] + items[1..];
    }
  }

  lemma DayRoundTrip(d: ScheduleDay)
    ensures DecodeDay(EncodeDay(d)) == Some(d)
  {
    DecimalRoundTrip(d.date);
    ItemsRoundTrip(d.items);
  }

  /** Decoding what `save_schedule` encoded gives back every day's date,
      items and summary, in order. */
  lemma {:induction false} DaysRoundTrip(days: seq<ScheduleDay>)
    ensures DecodeDays(Some(JArr(EncodeDays(days)))) == Some(days)
  {
    if days != [] {
      DayRoundTrip(days[0]);
      DaysRoundTrip(days[1..]);
      var enc := EncodeDays(days);
      assert enc[0] == EncodeDay(days[0]) && enc[1..] == EncodeDays(days[1..]);
      assert days == [days[0]] + days[1..];
    }
  }

  // ---------------------------------------------------------------------
  // The table

  datatype Fetch = NotFound | Found(schedule: Schedule) | Malformed

  /** `save_schedule`: INSERT OR REPLACE the course's row and return the schedule passed in. */
  function SaveSchedule(table: Table, courseId: int, s: Schedule): (r: (Table, Schedule))
    ensures r.1 == s
    ensures r.0.Keys == table.Keys + {courseId}
    ensures forall c :: c in table && c != courseId ==> r.0[c] == table[c]
  {
    (table[courseId := Row(s.generatedAt, s.timezone, Some(JArr(EncodeDays(s.days))))], s)
  }

  /** `get_schedule`: None when no row exists; otherwise the row rebuilt as a
      schedule whose course id is the row's key. */
  function GetSchedule(table: Table, courseId: int): (r: Fetch)
    ensures courseId !in table <==> r.NotFound?
    ensures r.Found? ==> r.schedule.courseId == courseId && r.schedule.timezone == table[courseId].timezone
    ensures courseId in table && table[courseId].days.None? ==> r.Found? && r.schedule.days == []
  {
    if courseId !in table then NotFound
    else
      var row := table[courseId];
      match DecodeDays(row.days)
      case None => Malformed
      case Some(days) => Found(Schedule(courseId, row.generatedAt, row.timezone, days))
  }

  /** `delete_schedule`: remove the course's row, if any. */
  function DeleteSchedule(table: Table, courseId: int): (r: Table)
    ensures courseId !in r
    ensures forall c :: c != courseId ==> (c in r <==> c in table)
    ensures forall c :: c in r ==> r[c] == table[c]
  {
    table - {courseId}
  }

  /** Reading after a save gives the saved schedule back, under the key it was saved with. */
  lemma GetAfterSave(table: Table, courseId: int, s: Schedule)
    ensures GetSchedule(SaveSchedule(table, courseId, s).0, courseId) == Found(s.(courseId := courseId))
  {
    DaysRoundTrip(s.days);
  }

  /** The last save of a course wins, and a save leaves other courses' reads alone. */
  lemma SaveOverwrites(table: Table, courseId: int, first: Schedule, second: Schedule)
    ensures SaveSchedule(SaveSchedule(table, courseId, first).0, courseId, second).0
            == SaveSchedule(table, courseId, second).0
  {
  }

  lemma SaveLeavesOthers(table: Table, courseId: int, other: int, s: Schedule)
    requires other != courseId
    ensures GetSchedule(SaveSchedule(table, courseId, s).0, other) == GetSchedule(table, other)
  {
  }

  /** After a delete the course reads as absent; other courses read as before. */
  lemma DeleteThenGet(table: Table, courseId: int, other: int)
    ensures GetSchedule(DeleteSchedule(table, courseId), courseId) == NotFound
    ensures other != courseId ==> GetSchedule(DeleteSchedule(table, courseId), other) == GetSchedule(table, other)
  {
  }
}

=== FILE: schedule_types.dfy ===
/** The schedule records shared by the schedule generator and the schedule
    table (the `Schedule`, `ScheduleDay` and `ScheduleItem` models).

    A calendar date is its proleptic Gregorian ordinal, as Python's
    `date.toordinal()` gives it: day 1 is Monday 1 January of year 1. */
module ScheduleTypes {

  import opened Common

  type Date = nat

  datatype ScheduleItem = ScheduleItem(
    kind: string,
    taskId: Option<int>,
    milestoneId: Option<int>,
    title: string,
    durationMinutes: int)

  datatype ScheduleDay = ScheduleDay(date: Date, items: seq<ScheduleItem>, summary: Option<string>)

  /** `generatedAt` is a timestamp in seconds; the clock is a parameter of
      whoever builds a schedule. */
  datatype Schedule = Schedule(courseId: int, generatedAt: int, timezone: string, days: seq<ScheduleDay>)
}

=== FILE: task_questions.dfy ===
/** `get_task_questions` in `src/api/routes/task.py`: each stored quiz
    question (a dict with a block list and answer blocks) becomes a simplified
    entry with a stem, options, an optional answer and an optional
    explanation.

    Block and answer values are JSON as stored. A step of the block scan that
    raises (a block that is not a dict, `props` that is not a dict, an item
    list that cannot be iterated) ends the scan, because the loop sits in a
    `try` whose handler passes; what was found before stays. The answer scan
    is outside that `try`, so a raise there fails the request (status 500). */
module TaskQuestions {

  import opened Common
  import opened Json

  type Fields = map<string, Json.Value>

  /** The task as `get_task` returns it: its type and its question dicts. */
  datatype QuizTask = QuizTask(taskType: string, questions: seq<Fields>)

  /** `TaskType.QUIZ` */
  const QuizType := "quiz"

  // ---------------------------------------------------------------------
  // Scanning the blocks of one question

  /** `stem`, `options` and `explanation` while the blocks are scanned.
      Python None is `JNull` for `stem` and `explanation`, `None` for `options`. */
  datatype Found = Found(stem: Json.Value, options: Option<seq<Json.Value>>, explanation: Json.Value)

  const NothingFound := Found(JNull, None, JNull)

  predicate IsStemBlock(kind: Json.Value)
  {
    kind == JStr("paragraph") || kind == JStr("heading")
  }

  predicate IsListBlock(kind: Json.Value)
  {
    kind == JStr("bulleted_list") || kind == JStr("numbered_list")
  }

  predicate IsNoteBlock(kind: Json.Value)
  {
    kind == JStr("note")
  }

  /** The stem a stem-kind block gives: its props text, else its content,
      else the question's title, each taken only when truthy except the
      last. None when the props cannot be read. */
  function StemOf(b: Fields, title: Json.Value): (r: Option<Json.Value>)
    ensures r.None? <==> PropsText(Get(b, "props")).None?
    ensures r.Some? ==>
              var t := PropsText(Get(b, "props")).value;
              r.value == if Truthy(t) then t else if Truthy(Get(b, "content")) then Get(b, "content") else title
  {
    match PropsText(Get(b, "props"))
    case None => None
    case Some(text) => Some(Or(text, Or(Get(b, "content"), title)))
  }

  /** One option's text: its props text, else its content, else the empty
      string. None when the item is not a dict or its props cannot be read. */
  function OptionText(item: Json.Value): (r: Option<Json.Value>)
    ensures r.None? <==> !item.JObj? || PropsText(Get(item.fields, "props")).None?
    ensures r.Some? ==> Truthy(r.value) || r.value == JStr("")
    ensures r.Some? && Truthy(Get(item.fields, "content")) ==> Truthy(r.value)
    ensures r.Some? ==> var t := PropsText(Get(item.fields, "props")).value;
              r.value == if Truthy(t) then t else if Truthy(Get(item.fields, "content")) then Get(item.fields, "content") else JStr("")
  {
    if !item.JObj? then None
    else
      match PropsText(Get(item.fields, "props"))
      case None => None
      case Some(text) => Some(Or(text, Or(Get(item.fields, "content"), JStr(""))))
  }

  function OptionTexts(items: seq<Json.Value>): (r: Option<seq<Json.Value>>)
    ensures r.Some? ==> |r.value| == |items|
    ensures r.Some? ==> forall k :: 0 <= k < |items| ==> OptionText(items[k]) == Some(r.value[k])
    ensures r.None? ==> exists k :: 0 <= k < |items| && OptionText(items[k]).None?
  {
    if items == [] then Some([])
    else
      match (OptionText(items[0]), OptionTexts(items[1..]))
      case (Some(t), Some(rest)) => Some([t] + rest)
      case (None, _) => None
      case (Some(_), None) => None
  }

  /** The item list of a list block: its children, else its content, else
      no items. */
  function ItemsOf(b: Fields): Json.Value
  {
    Or(Get(b, "children"), Or(Get(b, "content"), JArr([])))
  }

  /** The options of a list block: one text per item, with an empty list
      collapsing to None. The outer None means reading the items raised:
      they are not a list (a truthy non-list cannot be iterated into dicts)
      or some item cannot be read. */
  function OptionsOf(b: Fields): (r: Option<Option<seq<Json.Value>>>)
    ensures r.None? <==> !ItemsOf(b).JArr? || OptionTexts(ItemsOf(b).items).None?
    ensures r.Some? ==> (r.value.None? <==> ItemsOf(b).items == [])
    ensures r.Some? && r.value.Some? ==> r.value == OptionTexts(ItemsOf(b).items) && r.value.value != []
  {
    var items := ItemsOf(b);
    if !items.JArr? then None
    else
      match OptionTexts(items.items)
      case None => None
      case Some(texts) => Some(if texts == [] then None else Some(texts))
  }

  /** The scan's work on one block; None when it raises. A block sets at
      most the field of its own kind, and only while that field is still
      None. */
  function ScanBlock(b: Json.Value, title: Json.Value, f: Found): (r: Option<Found>)
    ensures r.Some? ==> b.JObj?
    ensures r.Some? && f.stem != JNull ==> r.value.stem == f.stem
    ensures r.Some? && f.options.Some? ==> r.value.options == f.options
    ensures r.Some? && f.explanation != JNull ==> r.value.explanation == f.explanation
    ensures r.Some? && !IsStemBlock(Get(b.fields, "type")) ==> r.value.stem == f.stem
    ensures r.Some? && !IsListBlock(Get(b.fields, "type")) ==> r.value.options == f.options
    ensures r.Some? && !IsNoteBlock(Get(b.fields, "type")) ==> r.value.explanation == f.explanation
    ensures b.JObj? && IsStemBlock(Get(b.fields, "type")) && f.stem == JNull ==>
              (r.Some? <==> StemOf(b.fields, title).Some?)
              && (r.Some? ==> r.value.stem == StemOf(b.fields, title).value)
    ensures b.JObj? && IsListBlock(Get(b.fields, "type")) && f.options.None? ==>
              (r.Some? <==> OptionsOf(b.fields).Some?)
              && (r.Some? ==> r.value.options == OptionsOf(b.fields).value)
    ensures b.JObj? && IsNoteBlock(Get(b.fields, "type")) && f.explanation == JNull ==>
              (r.Some? <==> PropsText(Get(b.fields, "props")).Some?)
              && (r.Some? ==> r.value.explanation == OrNull(PropsText(Get(b.fields, "props")).value))
  {
    if !b.JObj? then None
    else
      var m := b.fields;
      var kind := Get(m, "type");
      if IsStemBlock(kind) && f.stem == JNull then
        match StemOf(m, title)
        case None => None
        case Some(s) => Some(f.(stem := s))
      else if IsListBlock(kind) && f.options.None? then
        match OptionsOf(m)
        case None => None
        case Some(opts) => Some(f.(options := opts))
      else if IsNoteBlock(kind) && f.explanation == JNull then
        match PropsText(Get(m, "props"))
        case None => None
        case Some(text) => Some(f.(explanation := OrNull(text)))
      else Some(f)
  }

  /** The `for b in q.get("blocks", [])` loop inside its `try`. */
  function ScanBlocks(bs: seq<Json.Value>, title: Json.Value, f: Found): (r: Found)
    ensures f.stem != JNull ==> r.stem == f.stem
    ensures f.options.Some? ==> r.options == f.options
    ensures f.explanation != JNull ==> r.explanation == f.explanation
    ensures r.options.Some? && f.options.None? ==> r.options.value != []
  {
    if bs == [] then f
    else
      match ScanBlock(bs[0], title, f)
      case None => f
      case Some(next) => ScanBlocks(bs[1..], title, next)
  }

  /** The block list of a question; anything but a list yields no blocks
      (iterating it raises at once or yields nothing). */
  function BlocksOf(q: Fields): (r: seq<Json.Value>)
    ensures r != [] ==> Get(q, "blocks") == JArr(r)
    ensures Get(q, "blocks").JArr? ==> r == Get(q, "blocks").items
  {
    var v := Get(q, "blocks");
    if v.JArr? then v.items else []
  }

  /** No block of `bs` raises when the scan runs over them from `f`. */
  ghost predicate ScansCleanly(bs: seq<Json.Value>, title: Json.Value, f: Found)
    decreases |bs|
  {
    bs == [] || (ScanBlock(bs[0], title, f).Some? && ScansCleanly(bs[1..], title, ScanBlock(bs[0], title, f).value))
  }

  /** First match for the stem: when the scan reaches the first stem-kind
      block without raising and that block gives a non-None stem, that is
      the question's stem, whatever follows. */
  lemma {:induction false} FirstStemWins(bs: seq<Json.Value>, title: Json.Value, f: Found, k: nat)
    requires k < |bs| && f.stem == JNull
    requires ScansCleanly(bs[..k], title, f)
    requires forall j :: 0 <= j < k ==> bs[j].JObj? && !IsStemBlock(Get(bs[j].fields, "type"))
    requires bs[k].JObj? && IsStemBlock(Get(bs[k].fields, "type"))
    requires StemOf(bs[k].fields, title).Some? && StemOf(bs[k].fields, title).value != JNull
    ensures ScanBlocks(bs, title, f).stem == StemOf(bs[k].fields, title).value
  {
    if k > 0 {
      assert bs[..k][1..] == bs[1..][..k - 1];
      FirstStemWins(bs[1..], title, ScanBlock(bs[0], title, f).value, k - 1);
    }
  }

  /** First match for the options: the first list-kind block, reached
      without a raise and giving a non-empty list, decides the options. */
  lemma {:induction false} FirstOptionsWin(bs: seq<Json.Value>, title: Json.Value, f: Found, k: nat)
    requires k < |bs| && f.options.None?
    requires ScansCleanly(bs[..k], title, f)
    requires forall j :: 0 <= j < k ==> bs[j].JObj? && !IsListBlock(Get(bs[j].fields, "type"))
    requires bs[k].JObj? && IsListBlock(Get(bs[k].fields, "type"))
    requires OptionsOf(bs[k].fields).Some? && OptionsOf(bs[k].fields).value.Some?
    ensures ScanBlocks(bs, title, f).options == OptionsOf(bs[k].fields).value
  {
    if k > 0 {
      assert bs[..k][1..] == bs[1..][..k - 1];
      FirstOptionsWin(bs[1..], title, ScanBlock(bs[0], title, f).value, k - 1);
    }
  }

  /** First match for the explanation: the first note block, reached
      without a raise and holding a truthy text, decides the explanation. */
  lemma {:induction false} FirstNoteWins(bs: seq<Json.Value>, title: Json.Value, f: Found, k: nat)
    requires k < |bs| && f.explanation == JNull
    requires ScansCleanly(bs[..k], title, f)
    requires forall j :: 0 <= j < k ==> bs[j].JObj? && !IsNoteBlock(Get(bs[j].fields, "type"))
    requires bs[k].JObj? && IsNoteBlock(Get(bs[k].fields, "type"))
    requires PropsText(Get(bs[k].fields, "props")).Some? && Truthy(PropsText(Get(bs[k].fields, "props")).value)
    ensures ScanBlocks(bs, title, f).explanation == PropsText(Get(bs[k].fields, "props")).value
  {
    if k > 0 {
      assert bs[..k][1..] == bs[1..][..k - 1];
      FirstNoteWins(bs[1..], title, ScanBlock(bs[0], title, f).value, k - 1);
    }
  }

  /** A block of another kind, or a repeat of a kind already found, passes
      the scan through unchanged. */
  lemma OtherBlocksChangeNothing(b: Json.Value, title: Json.Value, f: Found)
    requires b.JObj?
    requires var kind := Get(b.fields, "type");
             (!IsStemBlock(kind) || f.stem != JNull)
             && (!IsListBlock(kind) || f.options.Some?)
             && (!IsNoteBlock(kind) || f.explanation != JNull)
    ensures ScanBlock(b, title, f) == Some(f)
  {
  }

  // ---------------------------------------------------------------------
  // Answers

  datatype Answer = Index(i: nat) | Text(value: Json.Value)

  /** One answer block's props text; None when the block is not a dict or
      its props cannot be read. */
  function AnswerText(b: Json.Value): Option<Json.Value>
  {
    if b.JObj? then PropsText(Get(b.fields, "props")) else None
  }

  /** The props texts of the answer blocks; None when some block raises. */
  function AnswerTexts(abs: seq<Json.Value>): (r: Option<seq<Json.Value>>)
    ensures r.Some? ==> |r.value| == |abs|
  {
    if abs == [] then Some([])
    else
      match (AnswerText(abs[0]), AnswerTexts(abs[1..]))
      case (Some(t), Some(rest)) => Some([t] + rest)
      case _ => None
  }

  /** Text k is block k's props text, and the texts exist exactly when
      every block can be read. */
  lemma {:induction false} AnswerTextsContents(abs: seq<Json.Value>)
    ensures AnswerTexts(abs).Some? <==> forall k :: 0 <= k < |abs| ==> AnswerText(abs[k]).Some?
    ensures AnswerTexts(abs).Some? ==> forall k :: 0 <= k < |abs| ==> AnswerText(abs[k]) == Some(AnswerTexts(abs).value[k])
  {
    if abs != [] {
      AnswerTextsContents(abs[1..]);
      assert forall k :: 1 <= k < |abs| ==> abs[k] == abs[1..][k - 1];
    }
  }

  /** Reference meaning: the last truthy text, or None when there is none. */
  function LastTruthy(texts: seq<Json.Value>): (r: Json.Value)
    ensures r == JNull || Truthy(r)
    ensures Truthy(r) ==> r in texts
  {
    if texts == [] then JNull
    else if Truthy(texts[|texts| - 1]) then texts[|texts| - 1]
    else LastTruthy(texts[..|texts| - 1])
  }

  /** The answer loop, from the front: each answer block's truthy props
      text replaces the value so far, a falsy one keeps it; None when a
      block raises. */
  function ScanAnswers(abs: seq<Json.Value>, acc: Json.Value): (r: Option<Json.Value>)
    ensures r.None? <==> AnswerTexts(abs).None?
    ensures r.Some? ==> r.value == acc || Truthy(r.value)
  {
    if abs == [] then Some(acc)
    else if !abs[0].JObj? then None
    else
      match PropsText(Get(abs[0].fields, "props"))
      case None => None
      case Some(t) => ScanAnswers(abs[1..], Or(t, acc))
  }

  lemma {:induction false} LastTruthyAppend(texts: seq<Json.Value>, t: Json.Value)
    ensures LastTruthy(texts + [t]) == Or(t, LastTruthy(texts))
  {
    assert (texts + [t])[..|texts|] == texts;
  }

  /** The loop keeps the last truthy text: scanning from an accumulator
      gives what the last truthy text of the accumulator followed by the
      texts would be. */
  lemma {:induction false} ScanAnswersKeepsLast(abs: seq<Json.Value>, prior: seq<Json.Value>)
    ensures ScanAnswers(abs, LastTruthy(prior)).Some? <==> AnswerTexts(abs).Some?
    ensures AnswerTexts(abs).Some? ==> ScanAnswers(abs, LastTruthy(prior)) == Some(LastTruthy(prior + AnswerTexts(abs).value))
  {
    if abs == [] {
      assert prior + [] == prior;
    } else if AnswerText(abs[0]).Some? {
      var t := AnswerText(abs[0]).value;
      LastTruthyAppend(prior, t);
      ScanAnswersKeepsLast(abs[1..], prior + [t]);
      if AnswerTexts(abs[1..]).Some? {
        var rest := AnswerTexts(abs[1..]).value;
        assert AnswerTexts(abs) == Some([t] + rest);
        assert prior + ([t] + rest) == (prior + [t]) + rest;
      }
    }
  }

  /** The first position of the options holding `text`; None when there is
      none, where the source's lookup raises `ValueError`. */
  function IndexOf(options: seq<Json.Value>, text: Json.Value): (k: Option<nat>)
    ensures k.Some? ==> k.value < |options| && options[k.value] == text
    ensures k.Some? ==> forall j :: 0 <= j < k.value ==> options[j] != text
    ensures k.None? <==> text !in options
  {
    if options == [] then None
    else if options[0] == text then Some(0)
    else
      match IndexOf(options[1..], text)
      case None => None
      case Some(k) => Some(k + 1)
  }

  /** The answer once the answer text is known: nothing for a falsy text;
      with options, the text's first position among them, or the text itself
      when it is not an option; without options, the text. */
  function AnswerFor(options: Option<seq<Json.Value>>, text: Json.Value): (r: Option<Answer>)
    ensures r.None? <==> !Truthy(text)
    ensures r.Some? && r.value.Index? ==>
              options.Some? && r.value.i < |options.value| && options.value[r.value.i] == text
              && forall j :: 0 <= j < r.value.i ==> options.value[j] != text
    ensures r.Some? && r.value.Text? ==> r.value.value == text && (options.Some? ==> text !in options.value)
  {
    if !Truthy(text) then None
    else if options.None? then Some(Text(text))
    else
      match IndexOf(options.value, text)
      case Some(k) => Some(Index(k))
      case None => Some(Text(text))
  }

  /** The `include_answers` block. The outer None means the request fails;
      the inner None means no `"answer"` key. */
  function AnswerOf(q: Fields, options: Option<seq<Json.Value>>, includeAnswers: bool): (r: Option<Option<Answer>>)
    ensures !includeAnswers ==> r == Some(None)
    ensures r.Some? && r.value.Some? && r.value.value.Index? ==>
              options.Some? && r.value.value.i < |options.value|
              && Truthy(options.value[r.value.value.i])
              && forall j :: 0 <= j < r.value.value.i ==> options.value[j] != options.value[r.value.value.i]
    ensures r.Some? && r.value.Some? && r.value.value.Text? ==>
              Truthy(r.value.value.value) && (options.Some? ==> r.value.value.value !in options.value)
  {
    if !includeAnswers then Some(None)
    else
      var blocks := Or(Get(q, "answer"), JArr([]));
      if !blocks.JArr? then None
      else
        match ScanAnswers(blocks.items, JNull)
        case None => None
        case Some(text) => Some(AnswerFor(options, text))
  }

  /** The answer is the last truthy answer text, or its position among the options. */
  lemma AnswerIsLastText(q: Fields, options: Option<seq<Json.Value>>)
    requires Get(q, "answer").JArr? && AnswerTexts(Get(q, "answer").items).Some?
    ensures AnswerOf(q, options, true) == Some(AnswerFor(options, LastTruthy(AnswerTexts(Get(q, "answer").items).value)))
  {
    var abs := Get(q, "answer").items;
    var texts := AnswerTexts(abs).value;
    ScanAnswersKeepsLast(abs, []);
    assert [] + texts == texts;
    assert ScanAnswers(abs, JNull) == Some(LastTruthy(texts));
    if abs == [] {
      assert Or(Get(q, "answer"), JArr([])) == JArr([]);
    } else {
      assert Or(Get(q, "answer"), JArr([])) == Get(q, "answer");
    }
  }

  // ---------------------------------------------------------------------
  // Entries

  datatype Entry = Entry(
    id: Json.Value,
    taskId: int,
    kind: string,
    question: Json.Value,
    options: Option<seq<Json.Value>>,
    answer: Option<Answer>,
    explanation: Option<Json.Value>)

  /** One simplified entry; None when its answer scan raises. */
  function Simplify(q: Fields, taskId: int, includeAnswers: bool): (r: Option<Entry>)
    ensures r.Some? ==> r.value.id == Get(q, "id") && r.value.taskId == taskId
    ensures r.Some? ==> (r.value.kind == "mcq" <==> Get(q, "type") == JStr("objective"))
    ensures r.Some? ==> (r.value.kind == "mcq" || r.value.kind == "short")
    ensures r.Some? && r.value.options.Some? ==> r.value.options.value != []
    ensures r.Some? && r.value.answer.Some? ==> includeAnswers
    ensures r.Some? && r.value.explanation.Some? ==> Truthy(r.value.explanation.value)
    ensures !includeAnswers ==> r.Some?
    ensures var found := ScanBlocks(BlocksOf(q), Get(q, "title"), NothingFound);
            && (r.None? <==> AnswerOf(q, found.options, includeAnswers).None?)
            && (r.Some? ==> Some(r.value.answer) == AnswerOf(q, found.options, includeAnswers))
            && (r.Some? ==> r.value.options == found.options)
            && (r.Some? ==> r.value.explanation == if Truthy(found.explanation) then Some(found.explanation) else None)
  {
    var title := Get(q, "title");
    var found := ScanBlocks(BlocksOf(q), title, NothingFound);
    match AnswerOf(q, found.options, includeAnswers)
    case None => None
    case Some(answer) =>
      Some(Entry(
        Get(q, "id"),
        taskId,
        if Get(q, "type") == JStr("objective") then "mcq" else "short",
        Or(found.stem, Or(title, JStr(""))),
        found.options,
        answer,
        if Truthy(found.explanation) then Some(found.explanation) else None))
  }

  /** The question text falls back from the stem to the title to "". */
  lemma QuestionFallsBack(q: Fields, taskId: int, includeAnswers: bool)
    requires Simplify(q, taskId, includeAnswers).Some?
    ensures var e := Simplify(q, taskId, includeAnswers).value;
            var stem := ScanBlocks(BlocksOf(q), Get(q, "title"), NothingFound).stem;
            && (Truthy(stem) ==> e.question == stem)
            && (!Truthy(stem) && Truthy(Get(q, "title")) ==> e.question == Get(q, "title"))
            && (!Truthy(stem) && !Truthy(Get(q, "title")) ==> e.question == JStr(""))
  {
  }

  function SimplifyAll(qs: seq<Fields>, taskId: int, includeAnswers: bool): (r: Option<seq<Entry>>)
    ensures r.Some? ==> |r.value| == |qs|
    ensures r.Some? ==> forall k :: 0 <= k < |qs| ==> Simplify(qs[k], taskId, includeAnswers) == Some(r.value[k])
    ensures r.None? ==> exists k :: 0 <= k < |qs| && Simplify(qs[k], taskId, includeAnswers).None?
  {
    if qs == [] then Some([])
    else
      match (Simplify(qs[0], taskId, includeAnswers), SimplifyAll(qs[1..], taskId, includeAnswers))
      case (Some(e), Some(rest)) => Some([e] + rest)
      case (None, _) => None
      case (Some(_), None) => None
  }

  datatype QuestionsResponse = QuestionsResponse(taskId: int, questions: seq<Entry>)

  /** `get_task_questions`: 404 unless the task exists and is a quiz; then
      one entry per question, in order, each carrying the task id. */
  function GetTaskQuestions(task: Option<QuizTask>, taskId: int, includeAnswers: bool): (r: Result<QuestionsResponse>)
    ensures r == Err(NotFound) <==> task.None? || task.value.taskType != QuizType
    ensures r.Err? ==> r.status == NotFound || (r.status == ServerError && includeAnswers)
    ensures r.Ok? ==> r.value.taskId == taskId && |r.value.questions| == |task.value.questions|
    ensures r.Ok? ==> forall k :: 0 <= k < |r.value.questions| ==>
              r.value.questions[k].taskId == taskId && r.value.questions[k].id == Get(task.value.questions[k], "id")
    ensures r.Ok? ==> SimplifyAll(task.value.questions, taskId, includeAnswers) == Some(r.value.questions)
    ensures r == Err(ServerError) <==>
              task.Some? && task.value.taskType == QuizType && SimplifyAll(task.value.questions, taskId, includeAnswers).None?
  {
    if task.None? || task.value.taskType != QuizType then Err(NotFound)
    else
      match SimplifyAll(task.value.questions, taskId, includeAnswers)
      case None => Err(ServerError)
      case Some(entries) => Ok(QuestionsResponse(taskId, entries))
  }
}

=== FILE: text.dfy ===
/** String helpers the backend relies on: `str.lower()` (ASCII letters only),
    the substring test `needle in haystack`, and the decimal rendering of a
    non-negative integer with its parser. */
module Text {

  import opened Common

  function LowerChar(c: char): char
  {
    if 'A' <= c <= 'Z' then (c as int + 32) as char else c
  }

  /** `s.lower()` restricted to ASCII: every upper-case letter is replaced by its
      lower-case partner and every other character is kept. */
  function Lower(s: string): (r: string)
    ensures |r| == |s|
    ensures forall i :: 0 <= i < |s| ==> r[i] == LowerChar(s[i])
  {
    seq(|s|, i requires 0 <= i < |s| => LowerChar(s[i]))
  }

  /** Reference meaning of `needle in haystack`: some window of the haystack
      equals the needle. */
  ghost predicate Occurs(needle: string, haystack: string)
  {
    exists i :: OccursAt(needle, haystack, i)
  }

  /** The window of `haystack` starting at `i` equals `needle`. */
  ghost predicate OccursAt(needle: string, haystack: string, i: int)
  {
    0 <= i <= |haystack| - |needle| && haystack[i..i + |needle|] == needle
  }

  /** Executable substring search that slides the needle along the haystack. */
  function Contains(haystack: string, needle: string): (b: bool)
    ensures b <==> Occurs(needle, haystack)
    decreases |haystack|
  {
    if |needle| > |haystack| then false
    else if haystack[..|needle|] == needle then
      assert OccursAt(needle, haystack, 0);
      true
    else
      var rest := Contains(haystack[1..], needle);
      OccursShift(needle, haystack);
      rest
  }

  /** A window of `h` that does not start at 0 is a window of `h[1..]`. */
  lemma OccursShift(needle: string, h: string)
    requires |needle| <= |h| && h[..|needle|] != needle
    ensures Occurs(needle, h) <==> Occurs(needle, h[1..])
  {
    if Occurs(needle, h) {
      var i :| OccursAt(needle, h, i);
      assert i != 0;
      assert h[1..][i - 1..i - 1 + |needle|] == needle;
      assert OccursAt(needle, h[1..], i - 1);
    }
    if Occurs(needle, h[1..]) {
      var i :| OccursAt(needle, h[1..], i);
      assert h[i + 1..i + 1 + |needle|] == needle;
      assert OccursAt(needle, h, i + 1);
    }
  }

  predicate IsDigit(c: char)
  {
    '0' <= c <= '9'
  }

  function DigitChar(d: nat): (c: char)
    requires d < 10
    ensures IsDigit(c)
  {
    ('0' as int + d) as char
  }

  /** The decimal rendering of a non-negative integer: its digits, most significant first. */
  function Decimal(n: nat): (s: string)
    ensures |s| > 0
    ensures forall i :: 0 <= i < |s| ==> IsDigit(s[i])
  {
    if n < 10 then [DigitChar(n)] else Decimal(n / 10) + [DigitChar(n % 10)]
  }

  /** The number a string of decimal digits denotes; None for anything else. */
  function ParseDecimal(s: string): (r: Option<nat>)
    ensures r.Some? <==> |s| > 0 && forall i :: 0 <= i < |s| ==> IsDigit(s[i])
  {
    if |s| == 0 then None
    else if !IsDigit(s[|s| - 1]) then None
    else if |s| == 1 then Some(s[0] as int - '0' as int)
    else
      match ParseDecimal(s[..|s| - 1])
      case None => None
      case Some(high) => Some(high * 10 + (s[|s| - 1] as int - '0' as int))
  }

  /** Rendering a number and parsing it back gives the number. */
  lemma {:induction false} DecimalRoundTrip(n: nat)
    ensures ParseDecimal(Decimal(n)) == Some(n)
  {
    if n >= 10 {
      DecimalRoundTrip(n / 10);
      var s := Decimal(n);
      assert s[..|s| - 1] == Decimal(n / 10);
    }
  }

  /** Distinct numbers render differently. */
  lemma DecimalInjective(m: nat, n: nat)
    requires Decimal(m) == Decimal(n)
    ensures m == n
  {
    DecimalRoundTrip(m);
    DecimalRoundTrip(n);
  }
}
